=== FILE: README.md ===
# board-java core rules in Dafny

This project models the pure rules of the `board-java` Kanban application (package `br.com.dio`) and proves properties about them. It covers:

- the generic guards of `ValidationUtils`;
- the entity rules of `EntityValidator`;
- the column layout that the console's "create board" command builds and validates;
- the card search. This includes the filter predicates of `CardSearchCriteria`, the SQL text and parameter list that `CardDAO` assembles, the positional binding of those parameters, the page arithmetic of `SearchResult`, and the orchestration in `CardSearchService`;
- the bounded metrics buffer of `MetricsCollector` and the integer aggregates of `MetricsReport`;
- the environment override and key mapping of `ApplicationConfig`, with its defaults and its lazily built singleton.

Java's `null` is modelled as `Option`. A thrown exception is modelled as the failure side of `Result` or `Outcome`, carrying an `Exception` value with the message the source uses. Java `int` and `long` ranges are explicit predicates. Java's truncating division and 32-bit wrap-around are written out. `String.trim` strips every character at or below U+0020 from both ends.

The database, the clock, the process environment and the properties file are parameters. Each SQL statement is a value: its text and its parameter list. The database is a pair of functions from statements to rows or to an SQL error.

Files, in dependency order:

- `wrappers.dfy`: `Option`, `Result`, `Outcome` and the exception values.
- `text.dfy`: `Text` (trim, blankness, ASCII lower-casing, replace-all, character counting, joining, integer printing and parsing) and `JavaInt` (ranges, wrap-around, truncating division).
- `validation_utils.dfy`, `entity_validator.dfy`: the validation layer.
- `board_creation.dfy`: the pure part of `MainMenu.createBoard` and `deleteBoard`.
- `search_criteria.dfy`, `card_query.dfy`, `paging.dfy`, `card_search_service.dfy`: the card search.
- `metrics.dfy`, `metrics_report.dfy`: metrics.
- `application_config.dfy`: configuration.

Where the model follows the code rather than the design text:

- A board needs only a non-empty column list with at least one INITIAL column, and every column must be valid. No FINAL or CANCEL column is required. Orders need not be unique or contiguous. The design's stricter layout rule, with exactly one INITIAL at 0, one FINAL and one CANCEL last, and orders 0..n-1, holds for boards built by the create command (`BoardCreation.LayoutShape`), but it is not enforced by validation.
- `requireLength` measures the untrimmed length.
- `SearchResult.of` computes `currentPage + 1` in `int` arithmetic (see Findings). The search builds its page with `of` as written, so the wrap-around is part of the modelled search. The corrected `Paging.Of` states the intended result and agrees with it below the largest `int` page.

## Model

| member | source | states |
|---|---|---|
| ValidationUtils.RequireNonNull | src/main/java/br/com/dio/validation/ValidationUtils.java:21-26 | Fails exactly when the value is null, with the given message; otherwise returns the value unchanged |
| ValidationUtils.RequireNonBlank | src/main/java/br/com/dio/validation/ValidationUtils.java:31-36 | Fails exactly when the value is null or blank; on success returns the trimmed string, which is non-empty |
| ValidationUtils.RequirePositive | src/main/java/br/com/dio/validation/ValidationUtils.java:41-46 | Fails exactly when the value is null or not positive; otherwise returns it unchanged |
| ValidationUtils.RequireNonEmpty | src/main/java/br/com/dio/validation/ValidationUtils.java:51-56 | Fails exactly when the collection is null or empty; otherwise returns the same collection |
| ValidationUtils.RequireCondition | src/main/java/br/com/dio/validation/ValidationUtils.java:61-67 | A null value fails with the fixed null message before the predicate is consulted; a present value passes exactly when the predicate holds, and fails with the caller's message otherwise |
| ValidationUtils.RequireLength | src/main/java/br/com/dio/validation/ValidationUtils.java:72-81 | Accepts exactly the non-blank strings whose untrimmed length lies in the range, and returns the untrimmed value. The failure message is chosen in order: blank, then too short, then too long |
| ValidationUtils.LengthCountsUntrimmed | src/main/java/br/com/dio/validation/ValidationUtils.java:74-80 | `" A"` passes a minimum length of 2 although its trimmed form has one character, and is returned with its leading space |
| ValidationUtils.RequireEquals | src/main/java/br/com/dio/validation/ValidationUtils.java:86-90 | Passes exactly when both values are null or both are present and equal |
| EntityValidator.ValidateBoardColumn | src/main/java/br/com/dio/validation/EntityValidator.java:34-42 | Accepts exactly a present column with a 2..50 character name, a kind and a non-negative order; a null column fails with its own message |
| EntityValidator.ColumnErrorOrder | src/main/java/br/com/dio/validation/EntityValidator.java:35-41 | The name is checked first, then the kind, then the order, each with its own message |
| EntityValidator.AnyInitialWithoutNulls | src/main/java/br/com/dio/validation/EntityValidator.java:24-25 | On a list without null entries, the INITIAL search answers whether some column is INITIAL |
| EntityValidator.AnyInitialThrowsOnNull | src/main/java/br/com/dio/validation/EntityValidator.java:24-25 | The INITIAL search can only fail with a NullPointerException, and only when the list holds a null entry |
| EntityValidator.ValidateColumns | src/main/java/br/com/dio/validation/EntityValidator.java:31 | The per-column loop passes exactly when every column is acceptable. When it fails, the exception is the one of the first column that is not acceptable, every earlier column being acceptable |
| EntityValidator.ValidateBoard | src/main/java/br/com/dio/validation/EntityValidator.java:18-32 | Accepts exactly a present board with a 2..100 character name and a non-empty column list that has some INITIAL column and only acceptable columns; a null board fails with "Board não pode ser nulo" |
| EntityValidator.BoardErrorOrder | src/main/java/br/com/dio/validation/EntityValidator.java:19-28 | The name is checked before the column list, and the list's emptiness before the presence of an INITIAL column, each with its own message. Once those pass, the board's outcome is the per-column loop's |
| EntityValidator.NullColumnBeforeInitialThrows | src/main/java/br/com/dio/validation/EntityValidator.java:24-25 | A null entry ahead of the INITIAL column makes board validation throw a NullPointerException |
| EntityValidator.ValidateCard | src/main/java/br/com/dio/validation/EntityValidator.java:44-49 | Accepts exactly a present card with a 3..100 character title, a 5..500 character description and a column; a card without a column fails with "Card deve estar associado a uma coluna" |
| EntityValidator.CardErrorOrder | src/main/java/br/com/dio/validation/EntityValidator.java:46-47 | The title's failure is reported before the description's |
| EntityValidator.ValidateCardForMove | src/main/java/br/com/dio/validation/EntityValidator.java:51-54 | Passes exactly when the card rules pass and the id is present; card-rule failures are reported unchanged, and a missing id has its own message |
| EntityValidator.ValidateBlockReason | src/main/java/br/com/dio/validation/EntityValidator.java:56-58 | Accepts exactly a non-blank reason of 5..200 characters |
| EntityValidator.TwoColumnBoardAccepted | src/test/java/br/com/dio/validation/EntityValidatorTest.java:132-149 | Any board with a legal name, one INITIAL column at 0 and one FINAL column at 1 with legal names is accepted; no CANCEL column is needed |
| EntityValidator.InitialAndFinalBoardAccepted | src/test/java/br/com/dio/validation/EntityValidatorTest.java:20-27 | The test's valid board ("Board de Teste", "Inicial"@0, "Final"@1) is accepted |
| EntityValidator.OnlyFinalColumnRejected | src/test/java/br/com/dio/validation/EntityValidatorTest.java:61-77 | A board whose only column is FINAL fails with "Board deve ter uma coluna inicial" |
| EntityValidator.ShortBoardNameRejected | src/test/java/br/com/dio/validation/EntityValidatorTest.java:49-59 | Whatever its columns, a board named "A" fails with the two-character minimum message |
| EntityValidator.ShortCardTitleRejected | src/test/java/br/com/dio/validation/EntityValidatorTest.java:88-98 | Whatever its other fields, a card titled "AB" fails with the three-character minimum message |
| EntityValidator.ShortBlockReasonRejected | src/test/java/br/com/dio/validation/EntityValidatorTest.java:121-130 | The reason "Erro" fails with the five-character minimum message |
| BoardCreation.ReadStringInput | src/main/java/br/com/dio/ui/MainMenu.java:256-263 | Fails exactly on blank input, with "Entrada não pode ser vazia"; otherwise returns the trimmed input |
| BoardCreation.ReadNames | src/main/java/br/com/dio/ui/MainMenu.java:98-113 | Reading n names succeeds exactly when n tokens are available and none is blank, and yields them trimmed in order; the first blank token determines the failure |
| BoardCreation.LayoutShape | src/main/java/br/com/dio/ui/MainMenu.java:96-114 | The layout has n+3 columns and every column's order is its position. The only INITIAL column is first, PENDING columns fill positions 1..n, the only FINAL is at n+1 and the only CANCEL is last with the highest order. Names appear in reading order |
| BoardCreation.BuildColumns | src/main/java/br/com/dio/ui/MainMenu.java:96-116 | The loop that appends columns one by one builds exactly the layout |
| BoardCreation.LayoutValidIffNamesLegal | src/main/java/br/com/dio/ui/MainMenu.java:96-119 | With non-blank names, the board built from the layout passes validation exactly when the board name has 2..100 characters and every column name 2..50 |
| BoardCreation.ColumnsAcceptableIff | src/main/java/br/com/dio/validation/EntityValidator.java:21-31 | A column list that starts with an INITIAL column and has kinds and non-negative orders is acceptable exactly when its names have legal lengths |
| BoardCreation.LaidOutBoardValidIff | src/main/java/br/com/dio/ui/MainMenu.java:116-119 | The board assembled from a name and n+3 column names validates exactly when the name lengths are legal |
| BoardCreation.CreateBoard | src/main/java/br/com/dio/ui/MainMenu.java:88-119 | A blank board name, an unreadable count or a count outside 0..10 fail with their messages, in that order. Otherwise the command succeeds exactly when enough non-blank names follow and all trimmed lengths are legal, and it then yields the laid-out board of the trimmed names |
| BoardCreation.TrimmedNamesLegal | src/main/java/br/com/dio/ui/MainMenu.java:98-113 | The trimmed names are legal exactly when each token's trimmed length is 2..50 |
| BoardCreation.BuildAndValidate | src/main/java/br/com/dio/ui/MainMenu.java:116-119 | Validation of the built board passes exactly when the name lengths are legal, and returns that board |
| BoardCreation.ConfirmDeletion | src/main/java/br/com/dio/ui/MainMenu.java:166-170 | Deletion proceeds exactly when the trimmed confirmation is "CONFIRMAR"; blank input is an error |
| SearchCriteria.Empty | src/main/java/br/com/dio/search/CardSearchCriteria.java:27-32 | `empty()` has no filter, limit 50 and offset 0 |
| SearchCriteria.TextGivenIff | src/main/java/br/com/dio/search/CardSearchCriteria.java:34-37 | A text counts as a filter exactly when it is present and non-empty after trimming |
| SearchCriteria.NoFilterHasNone | src/main/java/br/com/dio/search/CardSearchCriteria.java:34-54 | Criteria without any filter field make all five filter predicates false |
| SearchCriteria.BlankTextIsNoFilter | src/test/java/br/com/dio/search/CardSearchCriteriaTest.java:27-45 | Blank title and description texts are no text filter; `isBlocked = false` is a block filter, and a blank block reason is not |
| CardQuery.ConditionCount | src/main/java/br/com/dio/persistence/dao/CardDAO.java:157-216 | The WHERE clause has one condition per filter in force: each non-blank text, each non-empty id list, a present blocked flag, and each date bound |
| CardQuery.ParamCount | src/main/java/br/com/dio/persistence/dao/CardDAO.java:157-216 | The clause binds one parameter per non-blank text and per date bound, one per id in each id list, and none for the blocked flag |
| CardQuery.PlaceholdersMatchParams | src/main/java/br/com/dio/persistence/dao/CardDAO.java:100-147 | For every criteria value, both the find and the count statement contain exactly as many `?` as they have parameters |
| CardQuery.WhereClauseCount | src/main/java/br/com/dio/persistence/dao/CardDAO.java:160-221 | Joining well-formed conditions keeps one `?` per parameter |
| CardQuery.PlaceholdersShape | src/main/java/br/com/dio/persistence/dao/CardDAO.java:175-188 | The IN list for n ids alternates `?` and `,` and holds n `?`, so it starts and ends with `?` |
| CardQuery.InListCount | src/main/java/br/com/dio/persistence/dao/CardDAO.java:173-190 | An IN condition over n ids contains exactly n `?` |
| CardQuery.WherePresentIffFilter | src/main/java/br/com/dio/persistence/dao/CardDAO.java:218-221 | The statement has a WHERE clause exactly when one of the five filter predicates holds, and the clause then begins with " WHERE " |
| CardQuery.CountSharesFindClause | src/main/java/br/com/dio/persistence/dao/CardDAO.java:100-147 | Count and find share the WHERE clause and its parameters; find adds the descending id order and `LIMIT ? OFFSET ?`, whose limit and offset are the last two parameters |
| CardQuery.FindSuffixCount | src/main/java/br/com/dio/persistence/dao/CardDAO.java:110-115 | The ordering and paging suffix holds exactly two `?` |
| CardQuery.EveryFilterInOrder | src/main/java/br/com/dio/persistence/dao/CardDAO.java:157-221 | For every criteria with all eight filters in force, the conditions follow the fixed order title, description, board ids, column ids, blocked, reason, after, before. An id list gets one `?` per id, and blocked becomes `IS NOT NULL` or `IS NULL` by its value. The parameters are the trimmed texts inside `%`, every board id then every column id in list order, and the two bounds; the blocked flag binds nothing |
| CardQuery.AllFiltersInOrder | src/main/java/br/com/dio/persistence/dao/CardDAO.java:157-221 | One concrete instance of that order: texts "bug", "crash" and "api", board ids 1 and 2, column id 3, blocked, dates 10 and 20 give `IN (?,?)`, `IN (?)` and the parameters `%bug%`, `%crash%`, 1, 2, 3, `%api%`, 10, 20 |
| CardQuery.LikePartOf | src/main/java/br/com/dio/persistence/dao/CardDAO.java:161-170 | A text with no trimmable ends yields a LIKE condition bound to `%text%` |
| CardQuery.SetParameters | src/main/java/br/com/dio/persistence/dao/CardDAO.java:224-239 | Parameter k is bound at position k+1 with its value unchanged, one binding per parameter |
| Paging.OfAsWritten | src/main/java/br/com/dio/search/SearchResult.java:22-27 | `of` as written stores its four arguments unchanged, and there is a previous page exactly when the page number is positive |
| Paging.Of | src/main/java/br/com/dio/search/SearchResult.java:22-27 | The corrected `of` stores its arguments, and there is a previous page exactly when the page is positive. It agrees with the code below the largest `int` page |
| Paging.TotalPages | src/main/java/br/com/dio/search/SearchResult.java:29-31 | For a positive page size, the page count is the least number of pages covering the total. With page size 0 its sign follows the total's |
| Paging.CeilDivIsLeast | src/main/java/br/com/dio/search/SearchResult.java:29-31 | No smaller page count covers the total |
| Paging.HasNextIffMorePages | src/main/java/br/com/dio/search/SearchResult.java:23 | With a positive page size there is a next page exactly when the next page number is below the exact page count |
| Paging.HasNextIffBelowTotalPages | src/main/java/br/com/dio/search/SearchResult.java:23-31 | With a positive page size, `hasNext` holds exactly when the next page number is below `getTotalPages` |
| Paging.IsEmpty | src/main/java/br/com/dio/search/SearchResult.java:33-35 | A result is empty exactly when it has no list or its list has no elements |
| Paging.WrapReportsNextPage | src/main/java/br/com/dio/search/SearchResult.java:23 | At page `Integer.MAX_VALUE`, the code as written reports a next page of an empty result, whose page count is 0; the corrected `of` does not |
| CardSearchService.CountByCriteria | src/main/java/br/com/dio/persistence/dao/CardDAO.java:138-154 | The count fails exactly when the count statement fails. On success it is the statement's single value, and a missing row counts as zero |
| CardSearchService.SearchBody | src/main/java/br/com/dio/service/CardSearchService.java:28-56 | An SQL failure of the count or the find becomes "Erro ao buscar cards", and a zero limit throws "/ by zero". Otherwise the page holds the rows of the find, the total of the count, the limit as page size, and offset / limit as page number. The page is built by `of` as written, wrap-around included |
| CardSearchService.SearchCards | src/main/java/br/com/dio/service/CardSearchService.java:28-56 | The search is measured under "search_cards": the body's outcome is returned unchanged and one metric is recorded, with the error name on failure. The buffer keeps its older metrics in order, dropping the oldest once it is full |
| CardSearchService.PageHoldsOffset | src/main/java/br/com/dio/service/CardSearchService.java:41-44 | For a positive limit and non-negative offset, the offset lies on the computed page, and there is a previous page exactly when the offset reaches past the first page. Below the largest `int` page, there is a next page exactly when the following page number is below the page count |
| CardSearchService.LastPageReportsNext | src/main/java/br/com/dio/service/CardSearchService.java:28-56 | With limit 1, offset `Integer.MAX_VALUE` and no matching card, the search succeeds with an empty page of total 0 that still reports a next page |
| CardSearchService.TextCriteria | src/main/java/br/com/dio/service/CardSearchService.java:61-69 | The text search puts the same text in the title and description filters, with the given limit and offset and nothing else |
| CardSearchService.TextSearchFilters | src/main/java/br/com/dio/service/CardSearchService.java:61-69 | The text search has a text filter, and exactly two conditions, when the text is non-blank, and none otherwise |
| CardSearchService.BoardCriteria | src/main/java/br/com/dio/service/CardSearchService.java:75-82 | The board search's only filter is the one-element board list; a null id throws a NullPointerException |
| CardSearchService.BoardSearchQuery | src/main/java/br/com/dio/service/CardSearchService.java:75-82 | The board search's clause is " WHERE bc.board_id IN (?)" and it binds the id, the limit and the offset in that order |
| CardSearchService.BlockedCriteria | src/main/java/br/com/dio/service/CardSearchService.java:88-95 | The blocked search's only filter is `isBlocked = true` |
| CardSearchService.BlockedSearchQuery | src/main/java/br/com/dio/service/CardSearchService.java:88-95 | The blocked search's clause is " WHERE b.id IS NOT NULL" and it binds only the limit and the offset |
| Metrics.RecordMetric | src/main/java/br/com/dio/metrics/MetricsCollector.java:54-70 | After recording, the buffer holds at most 1000 metrics: the newest last, the oldest dropped first, the survivors in their order. Below capacity it is the old buffer plus the new metric |
| Metrics.MeasureOperation | src/main/java/br/com/dio/metrics/MetricsCollector.java:26-38 | The operation's outcome is returned unchanged and exactly one metric is recorded. On success it carries the name and empty details; on failure it carries the name with " (ERROR)" and the exception's message. The buffer keeps its older metrics in order, dropping the oldest once it is full |
| Metrics.MeasureRun | src/main/java/br/com/dio/metrics/MetricsCollector.java:43-48 | The Runnable overload records one metric like the Supplier overload and re-throws the same exception. The buffer keeps its older metrics in order, dropping the oldest once it is full |
| MetricsReport.MaxTime | src/main/java/br/com/dio/metrics/MetricsReport.java:46 | The maximum is at least every execution time and equals one of them |
| MetricsReport.MinTime | src/main/java/br/com/dio/metrics/MetricsReport.java:47 | The minimum is at most every execution time and equals one of them |
| MetricsReport.GroupByOperationStats | src/main/java/br/com/dio/metrics/MetricsReport.java:49-53 | The per-operation keys are exactly the distinct operation names, and each key's group is the metrics of that name in snapshot order |
| MetricsReport.InsertPermutes | src/main/java/br/com/dio/metrics/MetricsReport.java:55-57 | Inserting into the sorted prefix keeps the same multiset of metrics |
| MetricsReport.SortByTimeDescSpec | src/main/java/br/com/dio/metrics/MetricsReport.java:55-57 | The sort yields a permutation of the snapshot ordered by non-increasing execution time |
| MetricsReport.SlowestSpec | src/main/java/br/com/dio/metrics/MetricsReport.java:55-58 | The slowest list has min(10, n) entries, slowest first, all drawn from the snapshot, and no omitted metric is slower than the last one kept |
| MetricsReport.MakeReportSpec | src/main/java/br/com/dio/metrics/MetricsReport.java:26-59 | An empty snapshot gives zeros and empty collections. Otherwise min and max bound every time and are attained, the stats keys are the operation names with their counts, and the slowest list holds `min(10, n)` metrics of the snapshot, slowest first, with no metric left out slower than the last one kept |
| ApplicationConfig.PropertyKey | src/main/java/br/com/dio/config/ApplicationConfig.java:67 | A mapped property key never contains `_` |
| ApplicationConfig.DatabaseUrlKey | src/main/java/br/com/dio/config/ApplicationConfig.java:66-67 | `BOARD_DATABASE_URL` is an override and maps to `database.url` |
| ApplicationConfig.LastOverride | src/main/java/br/com/dio/config/ApplicationConfig.java:65-71 | An override for a key exists exactly when some `BOARD_` variable maps to that key, and its value is that of the last such variable in iteration order |
| ApplicationConfig.LoadPropertiesOverride | src/main/java/br/com/dio/config/ApplicationConfig.java:51-74 | A key is set exactly when the file has it or a variable overrides it. The last overriding variable wins over the file, and without an override the file's value stays |
| ApplicationConfig.NoOverrideKeepsFile | src/main/java/br/com/dio/config/ApplicationConfig.java:65-71 | Variables without the case-sensitive `BOARD_` prefix change nothing |
| ApplicationConfig.EnvironmentUrlWins | src/main/java/br/com/dio/config/ApplicationConfig.java:55-71 | In an environment whose only variable is `BOARD_DATABASE_URL`, a successfully built configuration has the variable's value as its url, whatever the file says |
| ApplicationConfig.GetProperty | src/main/java/br/com/dio/config/ApplicationConfig.java:30-35 | A present property gives its value, an absent one gives the default |
| ApplicationConfig.ParseBoolean | src/main/java/br/com/dio/config/ApplicationConfig.java:34 | Query logging is on exactly when the value is "true" ignoring case |
| ApplicationConfig.ParseIntOrThrow | src/main/java/br/com/dio/config/ApplicationConfig.java:33 | The pool size parses exactly when the text is a decimal `int`; otherwise it fails with a NumberFormatException naming the input |
| ApplicationConfig.NewConfig | src/main/java/br/com/dio/config/ApplicationConfig.java:27-38 | Building the configuration succeeds exactly when the pool-size property, or its default "10", parses; otherwise the pool-size property is set and its `NumberFormatException` is raised. Key by key, each setting is its property's value when the key is set: the pool size parsed, the logging flag by `parseBoolean`. When the key is absent, the setting is its default: the localhost url, user and password "board", pool 10, logging off, level INFO |
| ApplicationConfig.Defaults | src/main/java/br/com/dio/config/ApplicationConfig.java:30-35 | With no property set, the configuration is the url jdbc:mysql://localhost/board, user and password "board", pool 10, logging off and level INFO |
| ApplicationConfig.GetInstance | src/main/java/br/com/dio/config/ApplicationConfig.java:40-49 | An existing instance is returned as is. Otherwise the configuration is built and kept, and a failed build keeps nothing |
| ApplicationConfig.GetInstanceIdempotent | src/main/java/br/com/dio/config/ApplicationConfig.java:40-49 | A later call returns the same instance and leaves the state unchanged, whatever the properties are by then |
| Text.TrimEmptyIffBlank | src/main/java/br/com/dio/validation/ValidationUtils.java:32 | A string trims to empty exactly when every character is at or below U+0020 |
| Text.TrimIdempotent | src/main/java/br/com/dio/validation/ValidationUtils.java:35 | Trimming a trimmed string changes nothing, so the value `requireNonBlank` returns is already trimmed |
| Text.TrimIsMiddle | src/main/java/br/com/dio/validation/ValidationUtils.java:32 | The trimmed string is a contiguous middle part of the input, and everything cut from either end is at or below U+0020 |
| Text.ParseIntOfIntToString | src/main/java/br/com/dio/config/ApplicationConfig.java:33 | Every `int` printed in decimal parses back to itself |

## Left out

- Card moving, blocking, unblocking and cancelling are left out. The service that implements those transitions (`BoardService`) is not part of this model.
- JDBC is left out: connections, statement execution, row mapping, generated ids, `ConnectionConfig`, `BoardQueryService` and the migrations in `Main`. The database is a parameter that maps a statement to rows or to an SQL error.
- Console I/O is left out: prompts, printing, the menu loop, `System.exit`, and the metrics wrapper around `createBoard`. Scanner tokens are inputs, and `readIntegerInput` is an already parsed `Option<int>`.
- `ReportService` is left out. It is aggregation done by the database plus printed percentages.
- Floating point is left out: the averages and `DoubleSummaryStatistics` of `MetricsReport`, and `printReport`.
- Paging.TotalPages: computed as an exact integer ceiling saturated to `int`. The source divides in `double`, which rounds for totals beyond 2^53.
- MetricsReport.GroupByOperationStats: states the grouping and each group's count only. The per-operation averages are `double` and left out.
- MetricsReport.MaxTime: the source takes the maximum through a `double` and casts it back to `long`. That is exact only below 2^53; the model uses the exact maximum, and likewise for `MinTime`.
- Logging is left out, including the slow-operation threshold. The clock is a pair of time inputs and an `Instant` for the timestamp, and the report's generation time is not modelled.
- Concurrency is left out. The queue's thread-safety and the double-checked locking in `getInstance` are modelled sequentially, with the singleton state passed in and out.
- Loading `application.properties` is left out. The file's parsed contents are an input map, and a load that fails part-way with an `IOException` is not modelled. The process environment is an input sequence in iteration order.
- Text.ToLower: lower-cases ASCII letters only. The source's `toLowerCase` and `equalsIgnoreCase` follow Unicode.
- Text.ParseInt: accepts an optional sign and ASCII digits only. `Integer.parseInt` also accepts other Unicode digits.
- ValidationUtils.RequireLength: measures length in Unicode scalar values, so it agrees with `length()` only for text within the Basic Multilingual Plane (see the next line).
- Strings are sequences of Dafny `char`, which are Unicode scalar values, not the UTF-16 code units Java's `length()` counts. A character outside the Basic Multilingual Plane counts 1 in the model and 2 in `length()`, and a lone surrogate cannot be represented. So the length rules of `requireLength` (board, column, card and block reason) are modelled for text within the Basic Multilingual Plane only.
- NullPointerException and NoSuchElementException carry no message in the model. The message the JVM generates is not modelled.
- Null elements inside an id list are not modelled; ids are plain integers.
- Null operation names in metrics are not modelled.
- The source does not escape `%` and `_` in the texts bound to LIKE. The model keeps them as given and does not model how the database matches them.
- MetricsReport.SortByTimeDescSpec: proves a descending permutation but not stability. The relative order of metrics with equal times is not stated.
- The report takes a copy of the queue. Dafny's values are immutable, so the report cannot see later changes by construction, and no separate statement is made.

## Findings

| source | as written | input that shows it | evidently intended | confidence | as-written member | corrected member |
|---|---|---|---|---|---|---|
| src/main/java/br/com/dio/search/SearchResult.java:23 | `(long) (currentPage + 1) * pageSize < totalCount` adds in `int` before widening, so page `Integer.MAX_VALUE` wraps to `Integer.MIN_VALUE` and the product is negative | `currentPage = 2147483647`, `pageSize = 10`, `totalCount = 0`: `hasNext` is true for an empty result. `searchCards` reaches it with limit 1 and offset 2147483647, as `CardSearchService.LastPageReportsNext` shows | widen before adding, `((long) currentPage + 1) * pageSize < totalCount`, so `hasNext` holds exactly when the next page number is below the page count | not executed | Paging.OfAsWritten, Paging.WrapReportsNextPage, CardSearchService.LastPageReportsNext | Paging.Of, Paging.HasNextIffMorePages |

=== FILE: application_config.dfy ===
/** `ApplicationConfig`: properties from the bundled file, overridden by the
    `BOARD_` environment variables, read into typed settings with defaults. */
module ApplicationConfig {
  import opened Wrappers
  import opened Exceptions
  import opened Text
  import JavaInt

  /** A `Properties` table. */
  type Properties = map<string, string>

  /** The environment in the order `System.getenv().forEach` visits it. */
  type Environment = seq<(string, string)>

  const EnvPrefix: string := "BOARD_"

  /** The property key an environment variable sets: lower-cased, every
      "board_" removed, then every "_" turned into ".". */
  function PropertyKey(variable: string): (key: string)
    ensures '_' !in key
  {
    ReplaceCharRemovesIt(ReplaceAll(ToLower(variable), "board_", ""), '_', '.');
    ReplaceAll(ReplaceAll(ToLower(variable), "board_", ""), "_", ".")
  }

  /** Only variables whose name starts with "BOARD_" (case-sensitive) count. */
  predicate Overrides(variable: string) {
    StartsWith(variable, EnvPrefix)
  }

  /** One step of the `forEach`. */
  function Apply(props: Properties, entry: (string, string)): Properties {
    if Overrides(entry.0) then props[PropertyKey(entry.0) := entry.1] else props
  }

  /** `loadProperties`: the file's properties (empty when there is none), then
      every environment entry in turn. */
  function LoadProperties(file: Properties, env: Environment): Properties {
    if env == [] then file else Apply(LoadProperties(file, env[..|env| - 1]), env[|env| - 1])
  }

  /** The environment entry sets the property `key`. */
  predicate Sets(entry: (string, string), key: string) {
    Overrides(entry.0) && PropertyKey(entry.0) == key
  }

  /** Entry `i` sets `key` to `value`, and no later entry sets `key`. */
  predicate LastSetterAt(env: Environment, key: string, i: int, value: string) {
    && 0 <= i < |env|
    && Sets(env[i], key)
    && env[i].1 == value
    && forall j :: i < j < |env| ==> !Sets(env[j], key)
  }

  /** The value of the last environment entry that sets `key`, if any. */
  function LastOverride(env: Environment, key: string): (r: Option<string>)
    ensures r.Some? <==> exists i :: 0 <= i < |env| && Overrides(env[i].0) && PropertyKey(env[i].0) == key
    ensures r.Some? ==> exists i :: LastSetterAt(env, key, i, r.value)
  {
    if env == [] then None
    else
      var last := env[|env| - 1];
      var prefix := env[..|env| - 1];
      assert forall i :: 0 <= i < |prefix| ==> prefix[i] == env[i];
      if Sets(last, key) then
        assert LastSetterAt(env, key, |env| - 1, last.1);
        Some(last.1)
      else
        var rest := LastOverride(prefix, key);
        if rest.Some? then
          var i :| LastSetterAt(prefix, key, i, rest.value);
          assert LastSetterAt(env, key, i, rest.value);
          rest
        else rest
  }

  /** The environment wins over the file, and among environment entries the
      one visited last wins; keys nobody sets keep the file's value. */
  lemma {:induction false} LoadPropertiesOverride(file: Properties, env: Environment, key: string)
    ensures key in LoadProperties(file, env) <==> LastOverride(env, key).Some? || key in file
    ensures LastOverride(env, key).Some? ==> LoadProperties(file, env)[key] == LastOverride(env, key).value
    ensures LastOverride(env, key).None? && key in file ==> LoadProperties(file, env)[key] == file[key]
    decreases |env|
  {
    if env != [] {
      LoadPropertiesOverride(file, env[..|env| - 1], key);
    }
  }

  /** Without any "BOARD_" variable the file's properties are used as they are. */
  lemma {:induction false} NoOverrideKeepsFile(file: Properties, env: Environment)
    requires forall i :: 0 <= i < |env| ==> !Overrides(env[i].0)
    ensures LoadProperties(file, env) == file
    decreases |env|
  {
    if env != [] {
      var prefix := env[..|env| - 1];
      assert forall i :: 0 <= i < |prefix| ==> prefix[i] == env[i];
      NoOverrideKeepsFile(file, prefix);
    }
  }

  /** The typed settings. */
  datatype Config = Config(
    databaseUrl: string,
    databaseUser: string,
    databasePassword: string,
    maxConnectionPoolSize: int,
    enableQueryLogging: bool,
    logLevel: string)

  /** `getProperty(key, default)`. */
  function GetProperty(props: Properties, key: string, default: string): (r: string)
    ensures key in props ==> r == props[key]
    ensures key !in props ==> r == default
  {
    if key in props then props[key] else default
  }

  /** `Boolean.parseBoolean`: "true" in any letter case. */
  function ParseBoolean(s: string): (r: bool)
    ensures r <==> |s| == 4 && LowerChar(s[0]) == 't' && LowerChar(s[1]) == 'r' && LowerChar(s[2]) == 'u' && LowerChar(s[3]) == 'e'
  {
    ToLower(s) == "true"
  }

  /** `Integer.parseInt`, failing with `NumberFormatException`. */
  function ParseIntOrThrow(s: string): (r: Result<int, Exception>)
    ensures r.Success? <==> ParseInt(s).Some?
    ensures r.Success? ==> JavaInt.IsInt(r.value) && r.value == ParseInt(s).value
    ensures r.Failure? ==> r.error == NumberFormatException("For input string: \"" + s + "\"")
  {
    match ParseInt(s)
    case None => Failure(NumberFormatException("For input string: \"" + s + "\""))
    case Some(n) => Success(n)
  }

  /** The constructor: each setting from its property or its default. */
  function NewConfig(props: Properties): (r: Result<Config, Exception>)
    ensures r.Success? <==> ParseInt(GetProperty(props, "database.pool.max", "10")).Some?
    ensures r.Failure? ==> "database.pool.max" in props
    ensures r.Failure? && "database.pool.max" in props ==>
      r.error == NumberFormatException("For input string: \"" + props["database.pool.max"] + "\"")
    ensures r.Success? && "database.url" in props ==> r.value.databaseUrl == props["database.url"]
    ensures r.Success? && "database.url" !in props ==> r.value.databaseUrl == "jdbc:mysql://localhost/board"
    ensures r.Success? && "database.user" in props ==> r.value.databaseUser == props["database.user"]
    ensures r.Success? && "database.user" !in props ==> r.value.databaseUser == "board"
    ensures r.Success? && "database.password" in props ==> r.value.databasePassword == props["database.password"]
    ensures r.Success? && "database.password" !in props ==> r.value.databasePassword == "board"
    ensures r.Success? && "database.pool.max" in props ==>
      r.value.maxConnectionPoolSize == ParseInt(props["database.pool.max"]).value
    ensures r.Success? && "database.pool.max" !in props ==> r.value.maxConnectionPoolSize == 10
    ensures r.Success? && "database.query.logging" in props ==>
      r.value.enableQueryLogging == ParseBoolean(props["database.query.logging"])
    ensures r.Success? && "database.query.logging" !in props ==> !r.value.enableQueryLogging
    ensures r.Success? && "logging.level" in props ==> r.value.logLevel == props["logging.level"]
    ensures r.Success? && "logging.level" !in props ==> r.value.logLevel == "INFO"
  {
    DefaultPoolSizeParses();
    match ParseIntOrThrow(GetProperty(props, "database.pool.max", "10"))
    case Failure(e) => Failure(e)
    case Success(poolSize) =>
      Success(Config(
        GetProperty(props, "database.url", "jdbc:mysql://localhost/board"),
        GetProperty(props, "database.user", "board"),
        GetProperty(props, "database.password", "board"),
        poolSize,
        ParseBoolean(GetProperty(props, "database.query.logging", "false")),
        GetProperty(props, "logging.level", "INFO")))
  }

  /** The default pool size "10" is a valid `int`. */
  lemma DefaultPoolSizeParses()
    ensures ParseInt("10") == Some(10)
  {
    assert IntToString(10) == "10" by {
      assert NatToString(1) == "1";
      assert NatToString(0) == "0";
    }
    ParseIntOfIntToString(10);
  }

  /** With no property set, every setting takes its default. */
  lemma Defaults()
    ensures NewConfig(map[]) == Success(Config("jdbc:mysql://localhost/board", "board", "board", 10, false, "INFO"))
  {
  }

  /** The property file never overrides a variable-derived key: with
      `BOARD_DATABASE_URL` set, the url comes from the environment. */
  lemma EnvironmentUrlWins(file: Properties, url: string)
    ensures NewConfig(LoadProperties(file, [("BOARD_DATABASE_URL", url)])).Success? ==>
      NewConfig(LoadProperties(file, [("BOARD_DATABASE_URL", url)])).value.databaseUrl == url
  {
    DatabaseUrlKey();
    var env := [("BOARD_DATABASE_URL", url)];
    assert env[..0] == [];
  }

  /** `BOARD_DATABASE_URL` sets `database.url`. */
  lemma DatabaseUrlKey()
    ensures Overrides("BOARD_DATABASE_URL")
    ensures PropertyKey("BOARD_DATABASE_URL") == "database.url"
  {
    LowerDatabaseUrl();
    StripBoardPrefix();
    DotDatabaseUrl();
  }

  lemma LowerDatabaseUrl()
    ensures ToLower("BOARD_DATABASE_URL") == "board_database_url"
  {
  }

  lemma StripBoardPrefix()
    ensures ReplaceAll("board_database_url", "board_", "") == "database_url"
  {
    var s := "board_database_url";
    assert s[..6] == "board_";
    assert s[6..] == "database_url";
    ReplaceMissing("database_url", "board_", "", 'o');
  }

  lemma DotDatabaseUrl()
    ensures ReplaceAll("database_url", "_", ".") == "database.url"
  {
    assert "database_url" == "database" + ['_'] + "url";
    assert "database.url" == "database" + ['.'] + "url";
    ReplaceSingleChar("database", "url", '_', '.');
  }

  /** `getInstance`: the first call builds the configuration and keeps it; a
      failed build leaves nothing behind. */
  function GetInstance(instance: Option<Config>, props: Properties): (r: Result<(Config, Option<Config>), Exception>)
    ensures instance.Some? ==> r == Success((instance.value, instance))
    ensures instance.None? ==> (r.Success? <==> NewConfig(props).Success?)
    ensures r.Success? ==> r.value.1 == Some(r.value.0)
  {
    if instance.Some? then Success((instance.value, instance))
    else
      match NewConfig(props)
      case Failure(e) => Failure(e)
      case Success(config) => Success((config, Some(config)))
  }

  /** Calling `getInstance` again returns the same configuration and changes
      nothing, whatever the properties are by then. */
  lemma GetInstanceIdempotent(instance: Option<Config>, props: Properties, later: Properties)
    requires GetInstance(instance, props).Success?
    ensures var (first, state) := GetInstance(instance, props).value;
      GetInstance(state, later) == Success((first, state))
  {
  }
}

=== FILE: board_creation.dfy ===
/** The pure part of the console's board creation and deletion: reading
    trimmed names, laying out the columns, and validating the result. */
module BoardCreation {
  import opened Wrappers
  import opened Exceptions
  import opened Text
  import opened ValidationUtils
  import opened Entities
  import opened EntityValidator

  const MaxAdditionalColumns: int := 10

  /** `readStringInput`: the token is trimmed, and an empty result is rejected. */
  function ReadStringInput(token: string): (r: Result<string, Exception>)
    ensures r.Success? <==> !IsBlank(token)
    ensures r.Success? ==> r.value == Trim(token) && !IsBlank(r.value)
    ensures r.Failure? ==> r.error == ValidationException("Entrada não pode ser vazia")
  {
    TrimEmptyIffBlank(token);
    var input := Trim(token);
    if input == [] then Failure(ValidationException("Entrada não pode ser vazia"))
    else
      TrimIdempotent(token);
      TrimEmptyIffBlank(input);
      Success(input)
  }

  /** Reads `count` names one after another, as `createBoard` does; every blank
      token fails with the same message, and running out of tokens is
      Scanner's NoSuchElementException. */
  method ReadNames(tokens: seq<string>, count: nat) returns (r: Result<seq<string>, Exception>)
    ensures r.Success? <==> count <= |tokens| && forall i :: 0 <= i < count ==> !IsBlank(tokens[i])
    ensures r.Success? ==> r.value == TrimAll(tokens[..count])
    ensures r.Success? ==> forall i :: 0 <= i < count ==> !IsBlank(r.value[i])
    ensures r.Failure? && (exists i :: 0 <= i < count && i < |tokens| && IsBlank(tokens[i])) ==>
      r.error == ValidationException("Entrada não pode ser vazia")
    ensures r.Failure? && (forall i :: 0 <= i < count && i < |tokens| ==> !IsBlank(tokens[i])) ==>
      r.error == NoSuchElementException
  {
    var names: seq<string> := [];
    var k := 0;
    while k < count
      invariant 0 <= k <= count && k <= |tokens| && |names| == k
      invariant forall i :: 0 <= i < k ==> !IsBlank(tokens[i])
      invariant forall i :: 0 <= i < k ==> names[i] == Trim(tokens[i]) && !IsBlank(names[i])
    {
      if k == |tokens| {
        return Failure(NoSuchElementException);
      }
      var name := ReadStringInput(tokens[k]);
      if name.Failure? {
        assert IsBlank(tokens[k]);
        return Failure(name.error);
      }
      names := names + [name.value];
      k := k + 1;
    }
    assert names == TrimAll(tokens[..count]);
    return Success(names);
  }

  /** Trims every token. */
  function TrimAll(tokens: seq<string>): (r: seq<string>)
    ensures |r| == |tokens| && forall i :: 0 <= i < |r| ==> r[i] == Trim(tokens[i])
  {
    seq(|tokens|, i requires 0 <= i < |tokens| => Trim(tokens[i]))
  }

  /** `createColumn`. */
  function CreateColumn(name: string, kind: ColumnKind, order: int): BoardColumn {
    BoardColumn(Some(name), Some(kind), order)
  }

  /** The column list `createBoard` assembles: INITIAL at 0, the PENDING columns
      from 1, then FINAL, then CANCEL. */
  function Layout(initialName: string, pendingNames: seq<string>, finalName: string, cancelName: string): seq<BoardColumn> {
    var n := |pendingNames|;
    [CreateColumn(initialName, Initial, 0)]
      + seq(n, i requires 0 <= i < n => CreateColumn(pendingNames[i], Pending, i + 1))
      + [CreateColumn(finalName, Final, n + 1), CreateColumn(cancelName, Cancel, n + 2)]
  }

  /** The shape of the layout: orders are the list positions, exactly one
      INITIAL (first), one FINAL and one CANCEL (last, with the highest order),
      PENDING in between, and the names kept in reading order. */
  lemma LayoutShape(initialName: string, pendingNames: seq<string>, finalName: string, cancelName: string)
    ensures var cols, n := Layout(initialName, pendingNames, finalName, cancelName), |pendingNames|;
      && |cols| == n + 3
      && (forall i :: 0 <= i < |cols| ==> cols[i].order == i)
      && (forall i :: 0 <= i < |cols| ==> (cols[i].kind == Some(Initial) <==> i == 0))
      && (forall i :: 0 <= i < |cols| ==> (cols[i].kind == Some(Pending) <==> 1 <= i <= n))
      && (forall i :: 0 <= i < |cols| ==> (cols[i].kind == Some(Final) <==> i == n + 1))
      && (forall i :: 0 <= i < |cols| ==> (cols[i].kind == Some(Cancel) <==> i == n + 2))
      && (forall i :: 0 <= i < |cols| ==> cols[i].order <= cols[n + 2].order)
      && (forall i :: 0 <= i < |cols| ==>
            cols[i].name == Some(([initialName] + pendingNames + [finalName, cancelName])[i]))
  {
    var cols := Layout(initialName, pendingNames, finalName, cancelName);
    var n := |pendingNames|;
    var names := [initialName] + pendingNames + [finalName, cancelName];
    forall i | 0 <= i < |cols|
      ensures cols[i].order == i
      ensures cols[i].kind == Some(if i == 0 then Initial else if i <= n then Pending else if i == n + 1 then Final else Cancel)
      ensures cols[i].name == Some(names[i])
    {
      if 1 <= i <= n {
        assert cols[i] == CreateColumn(pendingNames[i - 1], Pending, i);
        assert names[i] == pendingNames[i - 1];
      }
    }
  }

  /** The loop of `createBoard` that appends the columns one by one builds
      exactly the layout. */
  method BuildColumns(initialName: string, pendingNames: seq<string>, finalName: string, cancelName: string)
    returns (columns: seq<BoardColumn>)
    ensures columns == Layout(initialName, pendingNames, finalName, cancelName)
  {
    columns := [CreateColumn(initialName, Initial, 0)];
    var i := 0;
    while i < |pendingNames|
      invariant 0 <= i <= |pendingNames|
      invariant |columns| == i + 1
      invariant columns[0] == CreateColumn(initialName, Initial, 0)
      invariant forall j :: 0 <= j < i ==> columns[j + 1] == CreateColumn(pendingNames[j], Pending, j + 1)
    {
      columns := columns + [CreateColumn(pendingNames[i], Pending, i + 1)];
      i := i + 1;
    }
    columns := columns + [CreateColumn(finalName, Final, |pendingNames| + 1)];
    columns := columns + [CreateColumn(cancelName, Cancel, |pendingNames| + 2)];
  }

  /** Lifts a column list into the entity's nullable-element list. */
  function Present(columns: seq<BoardColumn>): (r: seq<Option<BoardColumn>>)
    ensures |r| == |columns| && forall i :: 0 <= i < |r| ==> r[i] == Some(columns[i])
  {
    seq(|columns|, i requires 0 <= i < |columns| => Some(columns[i]))
  }

  /** Every name is legal for a column. */
  predicate ColumnNamesLegal(names: seq<string>) {
    forall i :: 0 <= i < |names| ==> 2 <= |names[i]| <= 50
  }

  /** A board laid out by `createBoard` from non-blank names passes
      `validateBoard` exactly when the board name has 2..100 characters and
      every column name 2..50. */
  lemma LayoutValidIffNamesLegal(boardName: string, initialName: string, pendingNames: seq<string>, finalName: string, cancelName: string)
    requires !IsBlank(boardName)
    requires !IsBlank(initialName) && !IsBlank(finalName) && !IsBlank(cancelName)
    requires forall i :: 0 <= i < |pendingNames| ==> !IsBlank(pendingNames[i])
    ensures ValidateBoard(Some(Board(Some(boardName), Some(Present(Layout(initialName, pendingNames, finalName, cancelName)))))).Pass?
      <==> 2 <= |boardName| <= 100 && ColumnNamesLegal([initialName] + pendingNames + [finalName, cancelName])
  {
    var names := [initialName] + pendingNames + [finalName, cancelName];
    var cols := Layout(initialName, pendingNames, finalName, cancelName);
    LayoutShape(initialName, pendingNames, finalName, cancelName);
    assert forall i :: 0 <= i < |names| ==> !IsBlank(names[i]) by {
      forall i | 0 <= i < |names| ensures !IsBlank(names[i]) {
        if 1 <= i <= |pendingNames| { assert names[i] == pendingNames[i - 1]; }
      }
    }
    assert forall i :: 0 <= i < |cols| ==> cols[i].kind.Some? by {
      forall i | 0 <= i < |cols| ensures cols[i].kind.Some? {
        if i == 0 { assert cols[i].kind == Some(Initial); }
        else if i <= |pendingNames| { assert cols[i].kind == Some(Pending); }
        else if i == |pendingNames| + 1 { assert cols[i].kind == Some(Final); }
        else { assert cols[i].kind == Some(Cancel); }
      }
    }
    ColumnsAcceptableIff(cols, names);
  }

  /** Columns carrying the given non-blank names, each with a kind and a
      non-negative order and the first INITIAL, pass the column-list checks
      exactly when every name has a legal length. */
  lemma ColumnsAcceptableIff(cols: seq<BoardColumn>, names: seq<string>)
    requires |cols| == |names| > 0
    requires cols[0].kind == Some(Initial)
    requires forall i :: 0 <= i < |cols| ==> cols[i].name == Some(names[i]) && cols[i].kind.Some? && cols[i].order >= 0
    requires forall i :: 0 <= i < |names| ==> !IsBlank(names[i])
    ensures ColumnListAcceptable(Some(Present(cols))) <==> ColumnNamesLegal(names)
  {
    var ps := Present(cols);
    assert IsInitial(ps[0]);
    assert forall i :: 0 <= i < |ps| ==> (ColumnAcceptable(ps[i]) <==> 2 <= |names[i]| <= 50);
  }

  /** The board `createBoard` builds from its name and the `n + 3` column names. */
  function LaidOutBoard(name: string, names: seq<string>): Board
    requires |names| >= 3
  {
    var n := |names| - 3;
    Board(Some(name), Some(Present(Layout(names[0], names[1..n + 1], names[n + 1], names[n + 2]))))
  }

  /** `LayoutValidIffNamesLegal` for the names as one list. */
  lemma LaidOutBoardValidIff(name: string, names: seq<string>)
    requires |names| >= 3 && !IsBlank(name)
    requires forall i :: 0 <= i < |names| ==> !IsBlank(names[i])
    ensures ValidateBoard(Some(LaidOutBoard(name, names))).Pass? <==> 2 <= |name| <= 100 && ColumnNamesLegal(names)
  {
    var n := |names| - 3;
    var pending := names[1..n + 1];
    assert [names[0]] + pending + [names[n + 1], names[n + 2]] == names;
    forall i | 0 <= i < |pending| ensures !IsBlank(pending[i]) {
      assert pending[i] == names[i + 1];
    }
    LayoutValidIffNamesLegal(name, names[0], pending, names[n + 1], names[n + 2]);
  }

  /** `createBoard` up to, and including, validation: the board name, the
      number of additional columns (already parsed; `None` when the input is
      not a number), then `n + 3` column names read in order. */
  method CreateBoard(boardToken: string, additional: Option<int>, tokens: seq<string>)
    returns (r: Result<Board, Exception>)
    ensures IsBlank(boardToken) ==> r == Failure(ValidationException("Entrada não pode ser vazia"))
    ensures !IsBlank(boardToken) && additional.None? ==>
      r == Failure(ValidationException("Entrada deve ser um número válido"))
    ensures !IsBlank(boardToken) && additional.Some? && !(0 <= additional.value <= MaxAdditionalColumns) ==>
      r == Failure(ValidationException("Número de colunas adicionais deve estar entre 0 e 10"))
    ensures r.Success? <==>
      && !IsBlank(boardToken) && 2 <= |Trim(boardToken)| <= 100
      && additional.Some? && 0 <= additional.value <= MaxAdditionalColumns
      && additional.value + 3 <= |tokens|
      && (forall i :: 0 <= i < additional.value + 3 ==> !IsBlank(tokens[i]) && 2 <= |Trim(tokens[i])| <= 50)
    ensures r.Success? ==> r.value == LaidOutBoard(Trim(boardToken), TrimAll(tokens[..additional.value + 3]))
  {
    var name := ReadStringInput(boardToken);
    if name.Failure? {
      return Failure(name.error);
    }
    if additional.None? {
      return Failure(ValidationException("Entrada deve ser um número válido"));
    }
    var n := additional.value;
    if n < 0 || n > MaxAdditionalColumns {
      return Failure(ValidationException("Número de colunas adicionais deve estar entre 0 e 10"));
    }
    var names := ReadNames(tokens, n + 3);
    if names.Failure? {
      return Failure(names.error);
    }
    var ns := names.value;
    TrimmedNamesLegal(tokens, n + 3);
    r := BuildAndValidate(name.value, ns);
  }

  /** The trimmed names are legal exactly when every token's trimmed length is. */
  lemma TrimmedNamesLegal(tokens: seq<string>, count: nat)
    requires count <= |tokens|
    ensures ColumnNamesLegal(TrimAll(tokens[..count])) <==> forall i :: 0 <= i < count ==> 2 <= |Trim(tokens[i])| <= 50
  {
    var ns := TrimAll(tokens[..count]);
    assert forall i :: 0 <= i < count ==> ns[i] == Trim(tokens[i]);
  }

  /** The end of `createBoard`: lay the read names out as columns and validate
      the board. */
  method BuildAndValidate(name: string, names: seq<string>) returns (r: Result<Board, Exception>)
    requires |names| >= 3 && !IsBlank(name)
    requires forall i :: 0 <= i < |names| ==> !IsBlank(names[i])
    ensures r.Success? <==> 2 <= |name| <= 100 && ColumnNamesLegal(names)
    ensures r.Success? ==> r.value == LaidOutBoard(name, names)
  {
    var n := |names| - 3;
    var columns := BuildColumns(names[0], names[1..n + 1], names[n + 1], names[n + 2]);
    var board := Board(Some(name), Some(Present(columns)));
    assert board == LaidOutBoard(name, names);
    LaidOutBoardValidIff(name, names);
    var outcome := ValidateBoard(Some(board));
    if outcome.Fail? {
      return Failure(outcome.error);
    }
    return Success(board);
  }

  /** The confirmation step of `deleteBoard`: the trimmed input must be exactly
      "CONFIRMAR" for the deletion to go ahead. */
  function ConfirmDeletion(token: string): (r: Result<bool, Exception>)
    ensures r == Success(true) <==> Trim(token) == "CONFIRMAR"
    ensures r.Failure? <==> IsBlank(token)
  {
    TrimEmptyIffBlank(token);
    match ReadStringInput(token)
    case Failure(e) => Failure(e)
    case Success(confirmation) => Success(confirmation == "CONFIRMAR")
  }
}

=== FILE: card_query.dfy ===
/** The SQL text and parameter list `CardDAO` assembles for a card search;
    the statements are only built here, never executed. */
module CardQuery {
  import opened Wrappers
  import opened Text
  import opened SearchCriteria

  /** A parameter as `setParameters` tells them apart: a `String`, a `Long`,
      an `Integer` or a `Timestamp`. */
  datatype Param = Str(str: string) | Long(long: int) | Integer(integer: int) | Stamp(stamp: DateTime)

  /** One condition of the WHERE clause together with the parameters it binds. */
  datatype Part = Part(condition: string, params: seq<Param>)

  /** A statement and its positional parameters. */
  datatype Query = Query(sql: string, params: seq<Param>)

  /** The FROM part and the two joins, shared by both statements. */
  const FromJoins: string :=
    "FROM CARDS c "
    + "INNER JOIN BOARDS_COLUMNS bc "
    + "ON bc.id = c.board_column_id "
    + "LEFT JOIN BLOCKS b ON c.id = b.card_id "
    + "AND b.unblocked_at IS NULL "

  /** The fixed head of the find statement. */
  const FindPrefix: string :=
    "SELECT c.id, c.title, c.description, "
    + "c.board_column_id, "
    + "bc.name as column_name, "
    + "bc.kind as column_kind, "
    + "bc.order_position, "
    + "b.blocked_at, b.block_reason "
    + FromJoins

  /** The fixed head of the count statement. */
  const CountPrefix: string := "SELECT COUNT(DISTINCT c.id) " + FromJoins

  const FindSuffix: string := " ORDER BY c.id DESC " + " LIMIT ? OFFSET ?"

  /** The LIKE pattern of a text filter: the trimmed text inside `%` wildcards. */
  function LikePattern(text: string): string {
    "%" + Trim(text) + "%"
  }

  /** One `?` per element, comma-separated (the `map(id -> "?")` and `reduce`). */
  function Placeholders(n: nat): string {
    Join(seq(n, i => "?"), ",")
  }

  /** A text filter adds `<column> LIKE ?` and its pattern when it is given. */
  function LikePart(column: string, text: Option<string>): seq<Part> {
    if TextGiven(text) then [Part(column + " LIKE ?", [Str(LikePattern(text.value))])] else []
  }

  /** An id filter adds `<column> IN (?,...,?)` and every id, in order, when the
      list is present and not empty. */
  function InPart(column: string, ids: Option<seq<int>>): seq<Part> {
    if IdsGiven(ids) then
      [Part(column + " IN (" + Placeholders(|ids.value|) + ")", IdParams(ids.value))]
    else []
  }

  /** The ids bound as `Long` parameters, in list order. */
  function IdParams(ids: seq<int>): seq<Param> {
    seq(|ids|, i requires 0 <= i < |ids| => Long(ids[i]))
  }

  /** The blocked-status filter binds nothing. */
  function BlockedPart(isBlocked: Option<bool>): seq<Part> {
    match isBlocked
    case None => []
    case Some(true) => [Part("b.id IS NOT NULL", [])]
    case Some(false) => [Part("b.id IS NULL", [])]
  }

  /** A date bound adds `c.created_at <op> ?` and the timestamp. */
  function DatePart(op: string, bound: Option<DateTime>): seq<Part> {
    if bound.Some? then [Part("c.created_at " + op + " ?", [Stamp(bound.value)])] else []
  }

  /** `appendWhereClause`: the parts in the order the code appends them. */
  function WhereParts(c: Criteria): seq<Part> {
    LikePart("c.title", c.titleContains)
    + LikePart("c.description", c.descriptionContains)
    + InPart("bc.board_id", c.boardIds)
    + InPart("c.board_column_id", c.boardColumnIds)
    + BlockedPart(c.isBlocked)
    + LikePart("b.block_reason", c.blockReasonContains)
    + DatePart(">=", c.createdAfter)
    + DatePart("<=", c.createdBefore)
  }

  function Conditions(parts: seq<Part>): (r: seq<string>)
    ensures |r| == |parts| && forall i :: 0 <= i < |parts| ==> r[i] == parts[i].condition
  {
    seq(|parts|, i requires 0 <= i < |parts| => parts[i].condition)
  }

  /** The parameters of the parts, one part after another. */
  function Params(parts: seq<Part>): seq<Param> {
    if parts == [] then [] else parts[0].params + Params(parts[1..])
  }

  /** The text appended to the statement: nothing without conditions, otherwise
      " WHERE " and the conditions joined with " AND ". */
  function WhereClause(conditions: seq<string>): string {
    if conditions == [] then "" else " WHERE " + Join(conditions, " AND ")
  }

  /** `findByCriteria`: the WHERE parameters, then limit and offset. */
  function FindQuery(c: Criteria): Query {
    var parts := WhereParts(c);
    Query(FindPrefix + WhereClause(Conditions(parts)) + FindSuffix, Params(parts) + [Integer(c.limit), Integer(c.offset)])
  }

  /** `countByCriteria`: the same WHERE clause and parameters, no paging. */
  function CountQuery(c: Criteria): Query {
    var parts := WhereParts(c);
    Query(CountPrefix + WhereClause(Conditions(parts)), Params(parts))
  }

  // Placeholder counting

  /** A part is well formed when its condition has one `?` per parameter. */
  predicate WellFormed(p: Part) {
    Count(p.condition, '?') == |p.params|
  }

  lemma {:induction false} ParamsAppend(a: seq<Part>, b: seq<Part>)
    ensures Params(a + b) == Params(a) + Params(b)
    decreases |a|
  {
    if a == [] {
      assert a + b == b;
    } else {
      assert (a + b)[1..] == a[1..] + b;
      ParamsAppend(a[1..], b);
    }
  }

  /** Over well-formed parts, the conditions hold exactly one `?` per parameter. */
  lemma {:induction false} CountAllConditions(parts: seq<Part>)
    requires AllWellFormed(parts)
    ensures CountAll(Conditions(parts), '?') == |Params(parts)|
    decreases |parts|
  {
    if parts != [] {
      assert Conditions(parts)[1..] == Conditions(parts[1..]);
      CountAllConditions(parts[1..]);
    }
  }

  lemma {:induction false} CountAllMarks(n: nat)
    ensures CountAll(seq(n, i => "?"), '?') == n
    decreases n
  {
    if n > 0 {
      assert seq(n, i => "?")[1..] == seq(n - 1, i => "?");
      CountAllMarks(n - 1);
    }
  }

  /** An IN list has exactly as many `?` as elements. */
  lemma PlaceholdersCount(n: nat)
    ensures Count(Placeholders(n), '?') == n
  {
    CountJoin(seq(n, i => "?"), ",", '?');
    CountAllMarks(n);
  }

  /** A literal without `?` followed by one `?`. */
  lemma CountOneMark(prefix: string)
    requires '?' !in prefix
    ensures Count(prefix + "?", '?') == 1
  {
    CountAppend(prefix, "?", '?');
    CountAbsent(prefix, '?');
  }

  /** The count of `?` in a text made of three pieces. */
  lemma CountThree(a: string, b: string, d: string)
    ensures Count(a + b + d, '?') == Count(a, '?') + Count(b, '?') + Count(d, '?')
  {
    CountAppend(a + b, d, '?');
    CountAppend(a, b, '?');
  }

  predicate AllWellFormed(parts: seq<Part>) {
    forall i :: 0 <= i < |parts| ==> WellFormed(parts[i])
  }

  lemma AllWellFormedAppend(a: seq<Part>, b: seq<Part>)
    requires AllWellFormed(a) && AllWellFormed(b)
    ensures AllWellFormed(a + b)
  {
    forall i | 0 <= i < |a + b| ensures WellFormed((a + b)[i]) {
      if i >= |a| { assert (a + b)[i] == b[i - |a|]; }
    }
  }

  lemma LikePartWellFormed(column: string, text: Option<string>)
    requires '?' !in column
    ensures AllWellFormed(LikePart(column, text))
  {
    CountOneMark(column + " LIKE ");
    assert column + " LIKE " + "?" == column + " LIKE ?";
  }

  lemma InPartWellFormed(column: string, ids: Option<seq<int>>)
    requires '?' !in column
    ensures AllWellFormed(InPart(column, ids))
  {
    if IdsGiven(ids) {
      InListCount(column, ids.value);
    }
  }

  lemma BlockedPartWellFormed(isBlocked: Option<bool>)
    ensures AllWellFormed(BlockedPart(isBlocked))
  {
    if isBlocked == Some(true) {
      NoMarkWellFormed("b.id IS NOT NULL");
    } else if isBlocked == Some(false) {
      NoMarkWellFormed("b.id IS NULL");
    }
  }

  lemma NoMarkWellFormed(condition: string)
    requires '?' !in condition
    ensures AllWellFormed([Part(condition, [])])
  {
    CountAbsent(condition, '?');
  }

  lemma DatePartWellFormed(op: string, bound: Option<DateTime>)
    requires '?' !in op
    ensures AllWellFormed(DatePart(op, bound))
  {
    CountOneMark("c.created_at " + op + " ");
    assert "c.created_at " + op + " " + "?" == "c.created_at " + op + " ?";
  }

  lemma WherePartsWellFormed(c: Criteria)
    ensures AllWellFormed(WhereParts(c))
  {
    LikePartWellFormed("c.title", c.titleContains);
    LikePartWellFormed("c.description", c.descriptionContains);
    InPartWellFormed("bc.board_id", c.boardIds);
    InPartWellFormed("c.board_column_id", c.boardColumnIds);
    BlockedPartWellFormed(c.isBlocked);
    LikePartWellFormed("b.block_reason", c.blockReasonContains);
    DatePartWellFormed(">=", c.createdAfter);
    DatePartWellFormed("<=", c.createdBefore);
    var p1 := LikePart("c.title", c.titleContains) + LikePart("c.description", c.descriptionContains);
    AllWellFormedAppend(LikePart("c.title", c.titleContains), LikePart("c.description", c.descriptionContains));
    var p2 := p1 + InPart("bc.board_id", c.boardIds);
    AllWellFormedAppend(p1, InPart("bc.board_id", c.boardIds));
    var p3 := p2 + InPart("c.board_column_id", c.boardColumnIds);
    AllWellFormedAppend(p2, InPart("c.board_column_id", c.boardColumnIds));
    var p4 := p3 + BlockedPart(c.isBlocked);
    AllWellFormedAppend(p3, BlockedPart(c.isBlocked));
    var p5 := p4 + LikePart("b.block_reason", c.blockReasonContains);
    AllWellFormedAppend(p4, LikePart("b.block_reason", c.blockReasonContains));
    var p6 := p5 + DatePart(">=", c.createdAfter);
    AllWellFormedAppend(p5, DatePart(">=", c.createdAfter));
    AllWellFormedAppend(p6, DatePart("<=", c.createdBefore));
  }

  lemma InListCount(column: string, ids: seq<int>)
    requires '?' !in column
    ensures Count(column + " IN (" + Placeholders(|ids|) + ")", '?') == |ids|
  {
    CountThree(column + " IN (", Placeholders(|ids|), ")");
    CountAppend(column, " IN (", '?');
    CountAbsent(column, '?');
    CountAbsent(" IN (", '?');
    CountAbsent(")", '?');
    PlaceholdersCount(|ids|);
  }

  /** The WHERE clause holds one `?` per parameter of its parts. */
  lemma WhereClauseCount(parts: seq<Part>)
    requires AllWellFormed(parts)
    ensures Count(WhereClause(Conditions(parts)), '?') == |Params(parts)|
  {
    CountAllConditions(parts);
    CountJoin(Conditions(parts), " AND ", '?');
    if parts != [] {
      CountAppend(" WHERE ", Join(Conditions(parts), " AND "), '?');
      CountAbsent(" WHERE ", '?');
    }
  }

  /** Both statements carry exactly one `?` per bound parameter. */
  lemma {:induction false} PlaceholdersMatchParams(c: Criteria)
    ensures Count(CountQuery(c).sql, '?') == |CountQuery(c).params|
    ensures Count(FindQuery(c).sql, '?') == |FindQuery(c).params|
  {
    var parts := WhereParts(c);
    var where := WhereClause(Conditions(parts));
    WherePartsWellFormed(c);
    WhereClauseCount(parts);
    PrefixesCount();
    CountAppend(CountPrefix, where, '?');
    CountThree(FindPrefix, where, FindSuffix);
    FindSuffixCount();
  }

  lemma NoMark(s: string)
    requires '?' !in s
    ensures Count(s, '?') == 0
  {
    CountAbsent(s, '?');
  }

  /** The fixed SELECT ... FROM ... JOIN texts bind nothing. */
  lemma PrefixesCount()
    ensures Count(FindPrefix, '?') == 0 && Count(CountPrefix, '?') == 0
  {
    FromJoinsFree();
    SelectFree();
    MarkFreeAppend("SELECT c.id, c.title, c.description, "
      + "c.board_column_id, "
      + "bc.name as column_name, "
      + "bc.kind as column_kind, "
      + "bc.order_position, "
      + "b.blocked_at, b.block_reason ", FromJoins);
    CountSelectFree();
    MarkFreeAppend("SELECT COUNT(DISTINCT c.id) ", FromJoins);
    NoMark(FindPrefix);
    NoMark(CountPrefix);
  }

  lemma SelectFree()
    ensures '?' !in "SELECT c.id, c.title, c.description, "
      + "c.board_column_id, "
      + "bc.name as column_name, "
      + "bc.kind as column_kind, "
      + "bc.order_position, "
      + "b.blocked_at, b.block_reason "
  {
    SelectPiece0Free();
    SelectPiece1Free();
    SelectPiece2Free();
    SelectPiece3Free();
    SelectPiece4Free();
    SelectPiece5Free();
  }

  lemma FromJoinsFree()
    ensures '?' !in FromJoins
  {
    FromJoinsPiece0Free();
    FromJoinsPiece1Free();
    FromJoinsPiece2Free();
    FromJoinsPiece3Free();
    FromJoinsPiece4Free();
  }

  // These one-line lemmas exist only to bound the proof cost. Deciding `'?' !in`
  // for a whole SELECT or FROM literal in one proof exceeds the solver's budget,
  // so each piece is decided alone and SelectFree and FromJoinsFree join them.

  lemma SelectPiece0Free() ensures '?' !in "SELECT c.id, c.title, c.description, " {}
  lemma SelectPiece1Free() ensures '?' !in "c.board_column_id, " {}
  lemma SelectPiece2Free() ensures '?' !in "bc.name as column_name, " {}
  lemma SelectPiece3Free() ensures '?' !in "bc.kind as column_kind, " {}
  lemma SelectPiece4Free() ensures '?' !in "bc.order_position, " {}
  lemma SelectPiece5Free() ensures '?' !in "b.blocked_at, b.block_reason " {}
  lemma FromJoinsPiece0Free() ensures '?' !in "FROM CARDS c " {}
  lemma FromJoinsPiece1Free() ensures '?' !in "INNER JOIN BOARDS_COLUMNS bc " {}
  lemma FromJoinsPiece2Free() ensures '?' !in "ON bc.id = c.board_column_id " {}
  lemma FromJoinsPiece3Free() ensures '?' !in "LEFT JOIN BLOCKS b ON c.id = b.card_id " {}
  lemma FromJoinsPiece4Free() ensures '?' !in "AND b.unblocked_at IS NULL " {}
  lemma CountSelectFree() ensures '?' !in "SELECT COUNT(DISTINCT c.id) " {}

  lemma MarkFreeAppend(a: string, b: string)
    requires '?' !in a && '?' !in b
    ensures '?' !in a + b
  {
  }

  /** The paging suffix holds the two markers of limit and offset. */
  lemma FindSuffixCount()
    ensures Count(FindSuffix, '?') == 2
  {
    var a, b := " ORDER BY c.id DESC  LIMIT ", " OFFSET ";
    assert FindSuffix == a + "?" + b + "?";
    TwoMarks(a, b);
  }

  /** Two `?` between and after mark-free texts. */
  lemma TwoMarks(a: string, b: string)
    requires '?' !in a && '?' !in b
    ensures Count(a + "?" + b + "?", '?') == 2
  {
    CountThree(a + "?", b, "?");
    CountOneMark(a);
    CountAbsent(b, '?');
  }

  // What the clause contains

  /** Number of parts a filter field contributes. */
  function Present(b: bool): nat { if b then 1 else 0 }

  /** One condition per filter in force (the two date bounds and the two text
      fields each count on their own). */
  lemma {:induction false} ConditionCount(c: Criteria)
    ensures |WhereParts(c)| ==
      Present(TextGiven(c.titleContains)) + Present(TextGiven(c.descriptionContains))
      + Present(HasBoardFilter(c)) + Present(HasColumnFilter(c))
      + Present(c.isBlocked.Some?) + Present(TextGiven(c.blockReasonContains))
      + Present(c.createdAfter.Some?) + Present(c.createdBefore.Some?)
  {
    var t := LikePart("c.title", c.titleContains);
    var d := LikePart("c.description", c.descriptionContains);
    var bi := InPart("bc.board_id", c.boardIds);
    var ci := InPart("c.board_column_id", c.boardColumnIds);
    var bl := BlockedPart(c.isBlocked);
    var r := LikePart("b.block_reason", c.blockReasonContains);
    var af := DatePart(">=", c.createdAfter);
    var be := DatePart("<=", c.createdBefore);
    WherePartsSplit(c);
    assert |t| == Present(TextGiven(c.titleContains));
    assert |d| == Present(TextGiven(c.descriptionContains));
    assert |bi| == Present(HasBoardFilter(c));
    assert |ci| == Present(HasColumnFilter(c));
    assert |bl| == Present(c.isBlocked.Some?);
    assert |r| == Present(TextGiven(c.blockReasonContains));
    assert |af| == Present(c.createdAfter.Some?);
    assert |be| == Present(c.createdBefore.Some?);
  }

  /** Parameters bound by the clause: one per text filter and date bound, one
      per id in each id list, none for the blocked status. */
  lemma ParamCount(c: Criteria)
    ensures |Params(WhereParts(c))| ==
      Present(TextGiven(c.titleContains)) + Present(TextGiven(c.descriptionContains))
      + (if HasBoardFilter(c) then |c.boardIds.value| else 0)
      + (if HasColumnFilter(c) then |c.boardColumnIds.value| else 0)
      + Present(TextGiven(c.blockReasonContains))
      + Present(c.createdAfter.Some?) + Present(c.createdBefore.Some?)
  {
    var t := LikePart("c.title", c.titleContains);
    var d := LikePart("c.description", c.descriptionContains);
    var bi := InPart("bc.board_id", c.boardIds);
    var ci := InPart("c.board_column_id", c.boardColumnIds);
    var bl := BlockedPart(c.isBlocked);
    var r := LikePart("b.block_reason", c.blockReasonContains);
    var af := DatePart(">=", c.createdAfter);
    var be := DatePart("<=", c.createdBefore);
    WherePartsSplit(c);
    ParamsConcat8(t, d, bi, ci, bl, r, af, be);
    LikeParamsLength("c.title", c.titleContains);
    LikeParamsLength("c.description", c.descriptionContains);
    InParamsLength("bc.board_id", c.boardIds);
    InParamsLength("c.board_column_id", c.boardColumnIds);
    BlockedParamsLength(c.isBlocked);
    LikeParamsLength("b.block_reason", c.blockReasonContains);
    DateParamsLength(">=", c.createdAfter);
    DateParamsLength("<=", c.createdBefore);
  }

  /** `WhereParts` as its eight pieces. */
  lemma WherePartsSplit(c: Criteria)
    ensures WhereParts(c) ==
      LikePart("c.title", c.titleContains) + LikePart("c.description", c.descriptionContains)
      + InPart("bc.board_id", c.boardIds) + InPart("c.board_column_id", c.boardColumnIds)
      + BlockedPart(c.isBlocked) + LikePart("b.block_reason", c.blockReasonContains)
      + DatePart(">=", c.createdAfter) + DatePart("<=", c.createdBefore)
  {
  }

  lemma BlockedParamsLength(isBlocked: Option<bool>)
    ensures |Params(BlockedPart(isBlocked))| == 0
  {
    PartParams(BlockedPart(isBlocked));
  }

  lemma ParamsConcat8(a: seq<Part>, b: seq<Part>, d: seq<Part>, e: seq<Part>, f: seq<Part>, g: seq<Part>, h: seq<Part>, k: seq<Part>)
    ensures Params(a + b + d + e + f + g + h + k) ==
      Params(a) + Params(b) + Params(d) + Params(e) + Params(f) + Params(g) + Params(h) + Params(k)
  {
    ParamsAppend(a, b);
    ParamsAppend(a + b, d);
    ParamsAppend(a + b + d, e);
    ParamsAppend(a + b + d + e, f);
    ParamsAppend(a + b + d + e + f, g);
    ParamsAppend(a + b + d + e + f + g, h);
    ParamsAppend(a + b + d + e + f + g + h, k);
  }

  lemma LikeParamsLength(column: string, text: Option<string>)
    ensures |Params(LikePart(column, text))| == Present(TextGiven(text))
  {
    PartParams(LikePart(column, text));
  }

  lemma InParamsLength(column: string, ids: Option<seq<int>>)
    ensures |Params(InPart(column, ids))| == if IdsGiven(ids) then |ids.value| else 0
  {
    PartParams(InPart(column, ids));
  }

  lemma DateParamsLength(op: string, bound: Option<DateTime>)
    ensures |Params(DatePart(op, bound))| == Present(bound.Some?)
  {
    PartParams(DatePart(op, bound));
  }

  /** The parameters of at most one part are that part's own. */
  lemma PartParams(parts: seq<Part>)
    requires |parts| <= 1
    ensures Params(parts) == if parts == [] then [] else parts[0].params
  {
    if parts != [] {
      assert parts[1..] == [];
    }
  }

  /** The statement gets a WHERE clause exactly when one of the filter
      predicates holds, and the clause then starts with " WHERE ". */
  lemma WherePresentIffFilter(c: Criteria)
    ensures var w := WhereClause(Conditions(WhereParts(c)));
      && (w != [] <==> HasTextFilter(c) || HasBoardFilter(c) || HasColumnFilter(c) || HasBlockFilter(c) || HasDateFilter(c))
      && (w != [] ==> StartsWith(w, " WHERE "))
  {
    ConditionCount(c);
    var w := WhereClause(Conditions(WhereParts(c)));
    if w != [] {
      assert w[..|" WHERE "|] == " WHERE ";
    }
  }

  /** The IN list for `n` ids alternates `?` and `,`, starting and ending
      with `?`. */
  lemma {:induction false} PlaceholdersShape(n: nat)
    ensures n == 0 ==> Placeholders(n) == ""
    ensures n > 0 ==> |Placeholders(n)| == 2 * n - 1
    ensures forall i :: 0 <= i < |Placeholders(n)| ==> Placeholders(n)[i] == if i % 2 == 0 then '?' else ','
    decreases n
  {
    if n > 1 {
      var marks := seq(n, i => "?");
      assert marks[1..] == seq(n - 1, i => "?");
      PlaceholdersShape(n - 1);
      var rest := Placeholders(n - 1);
      assert Placeholders(n) == "?," + rest;
      forall i | 2 <= i < |Placeholders(n)|
        ensures Placeholders(n)[i] == if i % 2 == 0 then '?' else ','
      {
        assert Placeholders(n)[i] == rest[i - 2];
      }
    } else if n == 1 {
      assert seq(1, i => "?") == ["?"];
    }
  }

  /** The count statement shares the find statement's WHERE clause and
      parameters; the find statement only adds the ordering and paging, whose
      two parameters are the last ones, limit before offset. */
  lemma CountSharesFindClause(c: Criteria)
    ensures FindQuery(c).params == CountQuery(c).params + [Integer(c.limit), Integer(c.offset)]
    ensures var where := WhereClause(Conditions(WhereParts(c)));
      && CountQuery(c).sql == CountPrefix + where
      && FindQuery(c).sql == FindPrefix + where + " ORDER BY c.id DESC  LIMIT ? OFFSET ?"
  {
  }

  /** A criteria object with every filter in force. */
  function AllFilters(): Criteria {
    Criteria(Some("bug"), Some("crash"), Some([3]), Some([1, 2]), Some(10), Some(20), Some(true), Some("api"), 50, 0)
  }

  /** Every filter in force, in the order the conditions are appended. */
  lemma AllFiltersInOrder()
    ensures Conditions(WhereParts(AllFilters())) ==
      ["c.title LIKE ?"] + ["c.description LIKE ?"] + ["bc.board_id IN (?,?)"] + ["c.board_column_id IN (?)"]
      + ["b.id IS NOT NULL"] + ["b.block_reason LIKE ?"] + ["c.created_at >= ?"] + ["c.created_at <= ?"]
    ensures Params(WhereParts(AllFilters())) ==
      [Str("%bug%")] + [Str("%crash%")] + [Long(1), Long(2)] + [Long(3)] + [] + [Str("%api%")] + [Stamp(10)] + [Stamp(20)]
  {
    AllFiltersConditions();
    AllFiltersParams();
  }

  /** Whatever the values, a criteria with all eight filters in force gives
      one condition per filter, in the order the code appends them, and binds
      the trimmed texts inside wildcards, every id of both lists in order, and
      the two bounds. */
  lemma EveryFilterInOrder(c: Criteria)
    requires EveryFilter(c)
    ensures Conditions(WhereParts(c)) ==
      ["c.title LIKE ?"] + ["c.description LIKE ?"]
      + ["bc.board_id IN (" + Placeholders(|c.boardIds.value|) + ")"]
      + ["c.board_column_id IN (" + Placeholders(|c.boardColumnIds.value|) + ")"]
      + [if c.isBlocked.value then "b.id IS NOT NULL" else "b.id IS NULL"]
      + ["b.block_reason LIKE ?"] + ["c.created_at >= ?"] + ["c.created_at <= ?"]
    ensures Params(WhereParts(c)) ==
      [Str(LikePattern(c.titleContains.value))] + [Str(LikePattern(c.descriptionContains.value))]
      + IdParams(c.boardIds.value) + IdParams(c.boardColumnIds.value)
      + [Str(LikePattern(c.blockReasonContains.value))]
      + [Stamp(c.createdAfter.value)] + [Stamp(c.createdBefore.value)]
  {
    var t, d, bi, ci, bl, r, af, be := EveryFilterPieces(c);
    ConditionsConcat8([t], [d], [bi], [ci], [bl], [r], [af], [be]);
    ConditionsOne(t); ConditionsOne(d); ConditionsOne(bi); ConditionsOne(ci);
    ConditionsOne(bl); ConditionsOne(r); ConditionsOne(af); ConditionsOne(be);
    ParamsConcat8([t], [d], [bi], [ci], [bl], [r], [af], [be]);
    ParamsOne(t); ParamsOne(d); ParamsOne(bi); ParamsOne(ci);
    ParamsOne(bl); ParamsOne(r); ParamsOne(af); ParamsOne(be);
  }

  /** All eight filters are in force. */
  predicate EveryFilter(c: Criteria) {
    && TextGiven(c.titleContains) && TextGiven(c.descriptionContains) && TextGiven(c.blockReasonContains)
    && IdsGiven(c.boardIds) && IdsGiven(c.boardColumnIds)
    && c.isBlocked.Some? && c.createdAfter.Some? && c.createdBefore.Some?
  }

  /** The eight parts of a criteria with every filter in force. */
  lemma EveryFilterPieces(c: Criteria) returns (t: Part, d: Part, bi: Part, ci: Part, bl: Part, r: Part, af: Part, be: Part)
    requires EveryFilter(c)
    ensures WhereParts(c) == [t] + [d] + [bi] + [ci] + [bl] + [r] + [af] + [be]
    ensures t == Part("c.title LIKE ?", [Str(LikePattern(c.titleContains.value))])
    ensures d == Part("c.description LIKE ?", [Str(LikePattern(c.descriptionContains.value))])
    ensures bi == Part("bc.board_id IN (" + Placeholders(|c.boardIds.value|) + ")", IdParams(c.boardIds.value))
    ensures ci == Part("c.board_column_id IN (" + Placeholders(|c.boardColumnIds.value|) + ")", IdParams(c.boardColumnIds.value))
    ensures bl == Part(if c.isBlocked.value then "b.id IS NOT NULL" else "b.id IS NULL", [])
    ensures r == Part("b.block_reason LIKE ?", [Str(LikePattern(c.blockReasonContains.value))])
    ensures af == Part("c.created_at >= ?", [Stamp(c.createdAfter.value)])
    ensures be == Part("c.created_at <= ?", [Stamp(c.createdBefore.value)])
  {
    LikeConditionTexts();
    t := LikePartGiven("c.title", c.titleContains, "c.title LIKE ?");
    d := LikePartGiven("c.description", c.descriptionContains, "c.description LIKE ?");
    r := LikePartGiven("b.block_reason", c.blockReasonContains, "b.block_reason LIKE ?");
    BoardInText();
    bi := InPartGiven("bc.board_id", c.boardIds, "bc.board_id IN (");
    ColumnInText();
    ci := InPartGiven("c.board_column_id", c.boardColumnIds, "c.board_column_id IN (");
    bl := Part(if c.isBlocked.value then "b.id IS NOT NULL" else "b.id IS NULL", []);
    DateConditionTexts();
    af := DatePartGiven(">=", c.createdAfter, "c.created_at >= ?");
    be := DatePartGiven("<=", c.createdBefore, "c.created_at <= ?");
    WherePartsSplit(c);
  }

  lemma LikePartGiven(column: string, text: Option<string>, condition: string) returns (p: Part)
    requires TextGiven(text) && column + " LIKE ?" == condition
    ensures p == Part(condition, [Str(LikePattern(text.value))]) && LikePart(column, text) == [p]
  {
    p := Part(condition, [Str(LikePattern(text.value))]);
  }

  lemma InPartGiven(column: string, ids: Option<seq<int>>, opening: string) returns (p: Part)
    requires IdsGiven(ids) && column + " IN (" == opening
    ensures p == Part(opening + Placeholders(|ids.value|) + ")", IdParams(ids.value)) && InPart(column, ids) == [p]
  {
    p := Part(opening + Placeholders(|ids.value|) + ")", IdParams(ids.value));
  }

  lemma DatePartGiven(op: string, bound: Option<DateTime>, condition: string) returns (p: Part)
    requires bound.Some? && "c.created_at " + op + " ?" == condition
    ensures p == Part(condition, [Stamp(bound.value)]) && DatePart(op, bound) == [p]
  {
    p := Part(condition, [Stamp(bound.value)]);
  }

  lemma LikeConditionTexts()
    ensures "c.title" + " LIKE ?" == "c.title LIKE ?"
    ensures "c.description" + " LIKE ?" == "c.description LIKE ?"
    ensures "b.block_reason" + " LIKE ?" == "b.block_reason LIKE ?"
  {
  }

  lemma DateConditionTexts()
    ensures "c.created_at " + ">=" + " ?" == "c.created_at >= ?"
    ensures "c.created_at " + "<=" + " ?" == "c.created_at <= ?"
  {
  }

  lemma BoardInText() ensures "bc.board_id" + " IN (" == "bc.board_id IN (" {}
  lemma ColumnInText() ensures "c.board_column_id" + " IN (" == "c.board_column_id IN (" {}

  /** The eight parts of `AllFilters`, one per filter. */
  lemma AllFiltersPieces()
    ensures WhereParts(AllFilters()) ==
      [Part("c.title LIKE ?", [Str("%bug%")])] + [Part("c.description LIKE ?", [Str("%crash%")])]
      + [Part("bc.board_id IN (?,?)", [Long(1), Long(2)])] + [Part("c.board_column_id IN (?)", [Long(3)])]
      + [Part("b.id IS NOT NULL", [])] + [Part("b.block_reason LIKE ?", [Str("%api%")])]
      + [Part("c.created_at >= ?", [Stamp(10)])] + [Part("c.created_at <= ?", [Stamp(20)])]
  {
    WherePartsSplit(AllFilters());
    ExampleLikeParts();
    ExampleInParts();
    ExampleDateParts();
    assert BlockedPart(Some(true)) == [Part("b.id IS NOT NULL", [])];
  }

  lemma AllFiltersConditions()
    ensures Conditions(WhereParts(AllFilters())) ==
      ["c.title LIKE ?"] + ["c.description LIKE ?"] + ["bc.board_id IN (?,?)"] + ["c.board_column_id IN (?)"]
      + ["b.id IS NOT NULL"] + ["b.block_reason LIKE ?"] + ["c.created_at >= ?"] + ["c.created_at <= ?"]
  {
    var t := Part("c.title LIKE ?", [Str("%bug%")]);
    var d := Part("c.description LIKE ?", [Str("%crash%")]);
    var bi := Part("bc.board_id IN (?,?)", [Long(1), Long(2)]);
    var ci := Part("c.board_column_id IN (?)", [Long(3)]);
    var bl := Part("b.id IS NOT NULL", []);
    var r := Part("b.block_reason LIKE ?", [Str("%api%")]);
    var af := Part("c.created_at >= ?", [Stamp(10)]);
    var be := Part("c.created_at <= ?", [Stamp(20)]);
    AllFiltersPieces();
    ConditionsConcat8([t], [d], [bi], [ci], [bl], [r], [af], [be]);
    ConditionsOne(t); ConditionsOne(d); ConditionsOne(bi); ConditionsOne(ci);
    ConditionsOne(bl); ConditionsOne(r); ConditionsOne(af); ConditionsOne(be);
  }

  /** The find statement's parameters: the clause's, then limit and offset. */
  lemma FindParams(c: Criteria)
    ensures FindQuery(c).params == Params(WhereParts(c)) + [Integer(c.limit), Integer(c.offset)]
  {
  }

  /** The WHERE clause of a single condition. */
  lemma WhereOfOne(condition: string)
    ensures WhereClause([condition]) == " WHERE " + condition
  {
  }

  lemma ConditionsOne(p: Part)
    ensures Conditions([p]) == [p.condition]
  {
  }

  lemma AllFiltersParams()
    ensures Params(WhereParts(AllFilters())) ==
      [Str("%bug%")] + [Str("%crash%")] + [Long(1), Long(2)] + [Long(3)] + [] + [Str("%api%")] + [Stamp(10)] + [Stamp(20)]
  {
    var t := Part("c.title LIKE ?", [Str("%bug%")]);
    var d := Part("c.description LIKE ?", [Str("%crash%")]);
    var bi := Part("bc.board_id IN (?,?)", [Long(1), Long(2)]);
    var ci := Part("c.board_column_id IN (?)", [Long(3)]);
    var bl := Part("b.id IS NOT NULL", []);
    var r := Part("b.block_reason LIKE ?", [Str("%api%")]);
    var af := Part("c.created_at >= ?", [Stamp(10)]);
    var be := Part("c.created_at <= ?", [Stamp(20)]);
    AllFiltersPieces();
    ParamsConcat8([t], [d], [bi], [ci], [bl], [r], [af], [be]);
    ParamsOne(t); ParamsOne(d); ParamsOne(bi); ParamsOne(ci);
    ParamsOne(bl); ParamsOne(r); ParamsOne(af); ParamsOne(be);
  }

  lemma ConditionsAppend(a: seq<Part>, b: seq<Part>)
    ensures Conditions(a + b) == Conditions(a) + Conditions(b)
  {
  }

  lemma ConditionsConcat8(a: seq<Part>, b: seq<Part>, d: seq<Part>, e: seq<Part>, f: seq<Part>, g: seq<Part>, h: seq<Part>, k: seq<Part>)
    ensures Conditions(a + b + d + e + f + g + h + k) ==
      Conditions(a) + Conditions(b) + Conditions(d) + Conditions(e) + Conditions(f) + Conditions(g) + Conditions(h) + Conditions(k)
  {
    ConditionsAppend(a, b);
    ConditionsAppend(a + b, d);
    ConditionsAppend(a + b + d, e);
    ConditionsAppend(a + b + d + e, f);
    ConditionsAppend(a + b + d + e + f, g);
    ConditionsAppend(a + b + d + e + f + g, h);
    ConditionsAppend(a + b + d + e + f + g + h, k);
  }

  lemma ParamsOne(p: Part)
    ensures Params([p]) == p.params
  {
    assert [p][1..] == [];
  }

  /** A text whose ends are kept is searched for as it is. */
  lemma LikePartOf(column: string, text: string)
    requires text != [] && !IsTrimmable(text[0]) && !IsTrimmable(text[|text| - 1])
    ensures LikePart(column, Some(text)) == [Part(column + " LIKE ?", [Str("%" + text + "%")])]
  {
    TrimKeeps(text);
  }

  lemma ExampleLikeParts()
    ensures LikePart("c.title", Some("bug")) == [Part("c.title LIKE ?", [Str("%bug%")])]
    ensures LikePart("c.description", Some("crash")) == [Part("c.description LIKE ?", [Str("%crash%")])]
    ensures LikePart("b.block_reason", Some("api")) == [Part("b.block_reason LIKE ?", [Str("%api%")])]
  {
    LikeConditionTexts();
    ExampleWildcards();
    LikePartOf("c.title", "bug");
    LikePartOf("c.description", "crash");
    LikePartOf("b.block_reason", "api");
  }

  lemma ExampleWildcards()
    ensures "%" + "bug" + "%" == "%bug%" && "%" + "crash" + "%" == "%crash%" && "%" + "api" + "%" == "%api%"
  {
  }

  lemma ExampleInParts()
    ensures InPart("bc.board_id", Some([1, 2])) == [Part("bc.board_id IN (?,?)", [Long(1), Long(2)])]
    ensures InPart("c.board_column_id", Some([3])) == [Part("c.board_column_id IN (?)", [Long(3)])]
  {
    PlaceholdersShape(2);
    PlaceholdersShape(1);
    assert Placeholders(2) == "?,?";
    assert Placeholders(1) == "?";
    assert "bc.board_id" + " IN (" + "?,?" + ")" == "bc.board_id IN (?,?)";
    assert "c.board_column_id" + " IN (" + "?" + ")" == "c.board_column_id IN (?)";
    var ids := [1, 2];
    assert seq(|ids|, i requires 0 <= i < |ids| => Long(ids[i])) == [Long(1), Long(2)];
    var columnIds := [3];
    assert seq(|columnIds|, i requires 0 <= i < |columnIds| => Long(columnIds[i])) == [Long(3)];
  }

  lemma ExampleDateParts()
    ensures DatePart(">=", Some(10)) == [Part("c.created_at >= ?", [Stamp(10)])]
    ensures DatePart("<=", Some(20)) == [Part("c.created_at <= ?", [Stamp(20)])]
  {
    assert "c.created_at " + ">=" + " ?" == "c.created_at >= ?";
    assert "c.created_at " + "<=" + " ?" == "c.created_at <= ?";
  }

  lemma PartsCons(parts: seq<Part>)
    requires parts != []
    ensures Params(parts) == parts[0].params + Params(parts[1..])
  {
  }

  // Binding

  /** One `setString` / `setLong` / `setInt` / `setTimestamp` call: the setter
      follows the parameter's kind, the position is 1-based. */
  datatype Binding = Binding(position: int, value: Param)

  /** `setParameters`: walks the list once, binding element `k` at position
      `k + 1`, so positions run 1..n with no gap and no repeat. */
  method SetParameters(params: seq<Param>) returns (bindings: seq<Binding>)
    ensures |bindings| == |params|
    ensures forall k :: 0 <= k < |params| ==> bindings[k].position == k + 1 && bindings[k].value == params[k]
  {
    bindings := [];
    var i := 0;
    while i < |params|
      invariant 0 <= i <= |params| && |bindings| == i
      invariant forall k :: 0 <= k < i ==> bindings[k].position == k + 1 && bindings[k].value == params[k]
    {
      bindings := bindings + [Binding(i + 1, params[i])];
      i := i + 1;
    }
  }
}

=== FILE: card_search_service.dfy ===
/** `CardSearchService`: runs the count and find statements for a criteria
    value, turns offset and limit into a page number, and builds the
    criteria of the three shortcut searches. */
module CardSearchService {
  import opened Wrappers
  import opened Exceptions
  import opened JavaInt
  import opened SearchCriteria
  import opened CardQuery
  import opened Paging
  import opened Metrics

  /** A Java `long`. */
  type Int64 = x: int | LONG_MIN <= x <= LONG_MAX

  /** A card row as the search maps it. */
  datatype CardRow = CardRow(id: int, title: Option<string>, description: Option<string>, columnId: int, columnName: Option<string>)

  /** The database behind the DAO: the first row of a count statement (if
      any), the rows of a find statement, or the message of the SQL error. */
  datatype Database = Database(
    count: Query -> Result<Option<Int64>, string>,
    find: Query -> Result<seq<CardRow>, string>)

  /** The message every SQL failure of a search is wrapped with. */
  const SearchFailed: string := "Erro ao buscar cards"

  /** `countByCriteria`: no row counts as zero. */
  function CountByCriteria(db: Database, c: Criteria): (r: Result<Int64, string>)
    ensures r.Failure? <==> db.count(CountQuery(c)).Failure?
    ensures r.Success? ==> r.value == db.count(CountQuery(c)).value.GetOr(0)
  {
    match db.count(CountQuery(c))
    case Failure(e) => Failure(e)
    case Success(row) => Success(if row.Some? then row.value else 0)
  }

  /** The body of `searchCards` inside the measuring wrapper: count, then
      find, then the page arithmetic; a SQL error becomes a
      `RuntimeException`, while the division by a zero limit throws
      `ArithmeticException` unwrapped, after both statements have run. */
  function SearchBody(db: Database, c: Criteria): (r: Result<SearchResult<CardRow>, Exception>)
    requires IsInt(c.limit) && IsInt(c.offset)
    ensures db.count(CountQuery(c)).Failure? ==> r == Failure(RuntimeException(SearchFailed))
    ensures db.count(CountQuery(c)).Success? && db.find(FindQuery(c)).Failure? ==>
      r == Failure(RuntimeException(SearchFailed))
    ensures db.count(CountQuery(c)).Success? && db.find(FindQuery(c)).Success? && c.limit == 0 ==>
      r == Failure(ArithmeticException("/ by zero"))
    ensures r.Success? <==> db.count(CountQuery(c)).Success? && db.find(FindQuery(c)).Success? && c.limit != 0
    ensures r.Success? ==>
      && r.value.items == Some(db.find(FindQuery(c)).value)
      && r.value.totalCount == CountByCriteria(db, c).value
      && r.value.pageSize == c.limit
      && r.value.currentPage == IntDiv(c.offset, c.limit)
  {
    match CountByCriteria(db, c)
    case Failure(_) => Failure(RuntimeException(SearchFailed))
    case Success(totalCount) =>
      match db.find(FindQuery(c))
      case Failure(_) => Failure(RuntimeException(SearchFailed))
      case Success(cards) =>
        var pageSize := c.limit;
        if pageSize == 0 then Failure(ArithmeticException("/ by zero"))
        else Success(OfAsWritten(Some(cards), totalCount, pageSize, IntDiv(c.offset, pageSize)))
  }

  /** `searchCards`: the body measured under "search_cards"; the result or
      exception of the body is passed through unchanged. */
  method SearchCards(buffer: seq<Metric>, db: Database, c: Criteria, start: int, end: int, now: Instant)
    returns (r: Result<SearchResult<CardRow>, Exception>, buffer': seq<Metric>)
    requires IsInt(c.limit) && IsInt(c.offset)
    ensures r == SearchBody(db, c)
    ensures |buffer'| == if |buffer| < Capacity then |buffer| + 1 else Capacity
    ensures buffer'[|buffer'| - 1].operation == if r.Success? then "search_cards" else ErrorName("search_cards")
    ensures buffer' == (buffer + [buffer'[|buffer'| - 1]])[|buffer| + 1 - |buffer'|..]
  {
    r, buffer' := MeasureOperation(buffer, "search_cards", SearchBody(db, c), start, end, now);
  }

  /** For a positive limit and a non-negative offset, the page number is the
      page that holds the offset, and there is a previous page exactly when
      the offset reaches past the first page. Below the last `int` page
      there is a next page exactly when the next page number is below the
      page count. */
  lemma PageHoldsOffset(db: Database, c: Criteria)
    requires IsInt(c.limit) && IsInt(c.offset) && c.limit > 0 && c.offset >= 0
    requires SearchBody(db, c).Success?
    ensures var page := SearchBody(db, c).value;
      && page.currentPage * c.limit <= c.offset < (page.currentPage + 1) * c.limit
      && (page.hasPrevious <==> c.offset >= c.limit)
      && (page.currentPage < INT_MAX ==> (page.hasNext <==> page.currentPage + 1 < CeilDiv(page.totalCount, c.limit)))
  {
    PageOfOffset(c.offset, c.limit);
    var page := SearchBody(db, c).value;
    HasNextIffMorePages(page.items, page.totalCount, c.limit, page.currentPage);
  }

  /** The search reaches the wrap-around of `of`: with limit 1 and offset
      `INT_MAX` the page number is `INT_MAX`, and an empty result reports a
      next page. */
  lemma LastPageReportsNext(db: Database, c: Criteria)
    requires c.limit == 1 && c.offset == INT_MAX
    requires db.count(CountQuery(c)).Success? && db.count(CountQuery(c)).value.GetOr(0) == 0
    requires db.find(FindQuery(c)) == Success([])
    ensures SearchBody(db, c).Success?
    ensures SearchBody(db, c).value.items == Some([]) && SearchBody(db, c).value.totalCount == 0
    ensures SearchBody(db, c).value.hasNext
  {
    assert IntDiv(INT_MAX, 1) == INT_MAX;
    assert WrapInt(INT_MAX + 1) == INT_MIN;
  }

  /** Java's division of a non-negative offset by a positive limit is the
      floor, so the offset lies on that page. */
  lemma PageOfOffset(offset: int, limit: int)
    requires IsInt(limit) && IsInt(offset) && limit > 0 && offset >= 0
    ensures IntDiv(offset, limit) * limit <= offset < (IntDiv(offset, limit) + 1) * limit
    ensures IntDiv(offset, limit) > 0 <==> offset >= limit
  {
    IntDivNonNegative(offset, limit);
    DivBetweenMultiples(offset, limit);
  }

  /** `searchByText`: the same text in the title and description filters. */
  function TextCriteria(searchText: Option<string>, limit: int, offset: int): (c: Criteria)
    ensures c.titleContains == searchText && c.descriptionContains == searchText
    ensures c.limit == limit && c.offset == offset
    ensures c.(titleContains := None, descriptionContains := None) == Blank().(limit := limit, offset := offset)
  {
    Blank().(titleContains := searchText, descriptionContains := searchText, limit := limit, offset := offset)
  }

  /** `searchByBoard`: `List.of(boardId)` rejects a null id before any search. */
  function BoardCriteria(boardId: Option<Int64>, limit: int, offset: int): (r: Result<Criteria, Exception>)
    ensures r.Failure? <==> boardId.None?
    ensures r.Failure? ==> r.error == NullPointerException
    ensures r.Success? ==> r.value.boardIds == Some([boardId.value]) && HasBoardFilter(r.value)
    ensures r.Success? ==> r.value.(boardIds := None) == Blank().(limit := limit, offset := offset)
  {
    match boardId
    case None => Failure(NullPointerException)
    case Some(id) => Success(Blank().(boardIds := Some([id]), limit := limit, offset := offset))
  }

  /** `searchBlockedCards`: only the blocked flag, set to true. */
  function BlockedCriteria(limit: int, offset: int): (c: Criteria)
    ensures c.isBlocked == Some(true) && HasBlockFilter(c)
    ensures c.(isBlocked := None) == Blank().(limit := limit, offset := offset)
  {
    Blank().(isBlocked := Some(true), limit := limit, offset := offset)
  }

  /** The board search binds its one id, then limit and offset. */
  lemma BoardSearchQuery(id: Int64, limit: int, offset: int)
    ensures var c := BoardCriteria(Some(id), limit, offset).value;
      && WhereClause(Conditions(WhereParts(c))) == " WHERE bc.board_id IN (?)"
      && FindQuery(c).params == [Long(id), Integer(limit), Integer(offset)]
  {
    BoardSearchWhere(id, limit, offset);
    BoardSearchParams(id, limit, offset);
  }

  lemma BoardSearchWhere(id: Int64, limit: int, offset: int)
    ensures WhereClause(Conditions(WhereParts(BoardCriteria(Some(id), limit, offset).value))) == " WHERE bc.board_id IN (?)"
  {
    BoardSearchParts(id, limit, offset);
    ConditionsOne(Part("bc.board_id IN (?)", [Long(id)]));
    WhereOfOne("bc.board_id IN (?)");
    BoardWhereText();
  }

  lemma BoardWhereText()
    ensures " WHERE " + "bc.board_id IN (?)" == " WHERE bc.board_id IN (?)"
  {
  }

  lemma BoardSearchParams(id: Int64, limit: int, offset: int)
    ensures FindQuery(BoardCriteria(Some(id), limit, offset).value).params == [Long(id), Integer(limit), Integer(offset)]
  {
    var c := BoardCriteria(Some(id), limit, offset).value;
    BoardSearchParts(id, limit, offset);
    FindParams(c);
    ParamsOne(Part("bc.board_id IN (?)", [Long(id)]));
  }

  lemma BoardSearchParts(id: Int64, limit: int, offset: int)
    ensures WhereParts(BoardCriteria(Some(id), limit, offset).value) == [Part("bc.board_id IN (?)", [Long(id)])]
  {
    var c := BoardCriteria(Some(id), limit, offset).value;
    WherePartsSplit(c);
    SingleIdPart(id);
  }

  lemma SingleIdPart(id: int)
    ensures InPart("bc.board_id", Some([id])) == [Part("bc.board_id IN (?)", [Long(id)])]
  {
    PlaceholdersShape(1);
    assert Placeholders(1) == "?";
    var ids := [id];
    assert seq(|ids|, i requires 0 <= i < |ids| => Long(ids[i])) == [Long(id)];
    assert "bc.board_id" + " IN (" + "?" + ")" == "bc.board_id IN (?)";
  }

  /** The blocked search binds nothing before limit and offset. */
  lemma BlockedSearchQuery(limit: int, offset: int)
    ensures var c := BlockedCriteria(limit, offset);
      && WhereClause(Conditions(WhereParts(c))) == " WHERE b.id IS NOT NULL"
      && FindQuery(c).params == [Integer(limit), Integer(offset)]
  {
    var c := BlockedCriteria(limit, offset);
    assert WhereParts(c) == [Part("b.id IS NOT NULL", [])];
    PartsCons(WhereParts(c));
  }

  /** A text search filters on both fields exactly when the text is not blank. */
  lemma TextSearchFilters(searchText: Option<string>, limit: int, offset: int)
    ensures var c := TextCriteria(searchText, limit, offset);
      && (HasTextFilter(c) <==> TextGiven(searchText))
      && |WhereParts(c)| == (if TextGiven(searchText) then 2 else 0)
  {
    ConditionCount(TextCriteria(searchText, limit, offset));
  }
}

=== FILE: entity_validator.dfy ===
/** The persisted entities as far as the validators and the board builder see
    them; every reference-typed field may be `null`, hence `Option`. */
module Entities {
  import opened Wrappers

  datatype ColumnKind = Initial | Pending | Final | Cancel

  datatype BoardColumn = BoardColumn(name: Option<string>, kind: Option<ColumnKind>, order: int)

  /** A board; its column list is itself nullable and may hold `null` entries. */
  datatype Board = Board(name: Option<string>, columns: Option<seq<Option<BoardColumn>>>)

  datatype Card = Card(id: Option<int>, title: Option<string>, description: Option<string>, column: Option<BoardColumn>)

  predicate IsInitial(c: Option<BoardColumn>) {
    c.Some? && c.value.kind == Some(Initial)
  }
}

/** `EntityValidator`: the composed rules for boards, columns, cards and block
    reasons. Each rule reports the first check that fails, in source order. */
module EntityValidator {
  import opened Wrappers
  import opened Exceptions
  import opened Text
  import opened ValidationUtils
  import opened Entities

  /** A column `validateBoardColumn` accepts. */
  predicate ColumnAcceptable(c: Option<BoardColumn>) {
    && c.Some?
    && c.value.name.Some? && LengthOk(c.value.name.value, 2, 50)
    && c.value.kind.Some?
    && c.value.order >= 0
  }

  /** The column list of a board `validateBoard` accepts: at least one column,
      some INITIAL column, and every column acceptable. Nothing is required of
      FINAL or CANCEL columns, nor of the uniqueness or contiguity of orders. */
  predicate ColumnListAcceptable(columns: Option<seq<Option<BoardColumn>>>) {
    && columns.Some?
    && |columns.value| > 0
    && (exists i :: 0 <= i < |columns.value| && IsInitial(columns.value[i]))
    && (forall i :: 0 <= i < |columns.value| ==> ColumnAcceptable(columns.value[i]))
  }

  /** A board `validateBoard` accepts. */
  predicate BoardAcceptable(b: Option<Board>) {
    && b.Some?
    && b.value.name.Some? && LengthOk(b.value.name.value, 2, 100)
    && ColumnListAcceptable(b.value.columns)
  }

  function ValidateBoardColumn(column: Option<BoardColumn>): (r: Outcome<Exception>)
    ensures r.Pass? <==> ColumnAcceptable(column)
    ensures column.None? ==> r == Fail(ValidationException("Coluna do board não pode ser nula"))
  {
    match column
    case None => Fail(ValidationException("Coluna do board não pode ser nula"))
    case Some(c) =>
      match RequireLength(c.name, 2, 50, "Nome da coluna")
      case Failure(e) => Fail(e)
      case Success(_) =>
        if c.kind.None? then Fail(ValidationException("Tipo da coluna não pode ser nulo"))
        else if c.order < 0 then Fail(ValidationException("Ordem da coluna deve ser um número positivo"))
        else Pass
  }

  /** The column checks run name, then kind, then order. */
  lemma ColumnErrorOrder(c: BoardColumn)
    ensures !LengthOk(c.name.GetOr(""), 2, 50) || c.name.None? ==>
      ValidateBoardColumn(Some(c)) == Fail(RequireLength(c.name, 2, 50, "Nome da coluna").error)
    ensures (c.name.Some? && LengthOk(c.name.value, 2, 50) && c.kind.None?) ==>
      ValidateBoardColumn(Some(c)) == Fail(ValidationException("Tipo da coluna não pode ser nulo"))
    ensures (c.name.Some? && LengthOk(c.name.value, 2, 50) && c.kind.Some? && c.order < 0) ==>
      ValidateBoardColumn(Some(c)) == Fail(ValidationException("Ordem da coluna deve ser um número positivo"))
  {
  }

  /** The `anyMatch` over the column list: it stops at the first INITIAL column,
      and dereferencing a `null` entry met before that throws. */
  function AnyInitial(columns: seq<Option<BoardColumn>>): Result<bool, Exception> {
    if columns == [] then Success(false)
    else if columns[0].None? then Failure(NullPointerException)
    else if IsInitial(columns[0]) then Success(true)
    else AnyInitial(columns[1..])
  }

  /** Over a list without null entries, `anyMatch` answers whether some column
      is INITIAL. */
  lemma {:induction false} AnyInitialWithoutNulls(columns: seq<Option<BoardColumn>>)
    requires forall i :: 0 <= i < |columns| ==> columns[i].Some?
    ensures AnyInitial(columns) == Success(exists i :: 0 <= i < |columns| && IsInitial(columns[i]))
    decreases |columns|
  {
    if columns != [] && !IsInitial(columns[0]) {
      AnyInitialWithoutNulls(columns[1..]);
      assert forall i :: 0 < i < |columns| ==> columns[i] == columns[1..][i - 1];
      assert (exists i :: 0 <= i < |columns| && IsInitial(columns[i])) ==>
        exists i :: 0 <= i < |columns[1..]| && IsInitial(columns[1..][i]) by {
        if exists i :: 0 <= i < |columns| && IsInitial(columns[i]) {
          var i :| 0 <= i < |columns| && IsInitial(columns[i]);
          assert IsInitial(columns[1..][i - 1]);
        }
      }
    }
  }

  /** `anyMatch` throws only on a null entry, and only if no INITIAL column
      precedes it. */
  lemma {:induction false} AnyInitialThrowsOnNull(columns: seq<Option<BoardColumn>>)
    ensures AnyInitial(columns).Failure? ==> AnyInitial(columns).error == NullPointerException
    ensures AnyInitial(columns).Failure? ==> exists i :: 0 <= i < |columns| && columns[i].None?
    decreases |columns|
  {
    if columns != [] && columns[0].Some? && !IsInitial(columns[0]) {
      AnyInitialThrowsOnNull(columns[1..]);
      if AnyInitial(columns).Failure? {
        var i :| 0 <= i < |columns[1..]| && columns[1..][i].None?;
        assert columns[i + 1].None?;
      }
    }
  }

  /** Column `k` is the first one that is not acceptable, and `r` is what
      validating it reports. */
  predicate FirstFailure(columns: seq<Option<BoardColumn>>, k: int, r: Outcome<Exception>) {
    && 0 <= k < |columns|
    && (forall j :: 0 <= j < k ==> ColumnAcceptable(columns[j]))
    && r == ValidateBoardColumn(columns[k])
  }

  /** The `forEach(validateBoardColumn)`: the first column that fails decides. */
  function ValidateColumns(columns: seq<Option<BoardColumn>>): (r: Outcome<Exception>)
    ensures r.Pass? <==> forall i :: 0 <= i < |columns| ==> ColumnAcceptable(columns[i])
    ensures r.Fail? ==> exists k :: FirstFailure(columns, k, r)
  {
    if columns == [] then Pass
    else
      var head := ValidateBoardColumn(columns[0]);
      if head.Fail? then assert FirstFailure(columns, 0, head); head
      else
        AllAcceptableSplit(columns);
        var rest := ValidateColumns(columns[1..]);
        if rest.Fail? then FirstFailureShifts(columns, rest); rest
        else rest
  }

  /** A first failing column of the tail, one position further on, is the
      first failing column of the whole list when the head is acceptable. */
  lemma FirstFailureShifts(columns: seq<Option<BoardColumn>>, r: Outcome<Exception>)
    requires columns != [] && ColumnAcceptable(columns[0])
    requires exists k :: FirstFailure(columns[1..], k, r)
    ensures exists k :: FirstFailure(columns, k, r)
  {
    var tail := columns[1..];
    var k :| FirstFailure(tail, k, r);
    assert columns[k + 1] == tail[k];
    forall j | 0 <= j < k + 1 ensures ColumnAcceptable(columns[j]) {
      if j > 0 {
        assert columns[j] == tail[j - 1];
      }
    }
    assert FirstFailure(columns, k + 1, r);
  }

  lemma AllAcceptableSplit(columns: seq<Option<BoardColumn>>)
    requires columns != []
    ensures (forall i :: 0 <= i < |columns| ==> ColumnAcceptable(columns[i])) <==>
      ColumnAcceptable(columns[0]) && forall i :: 0 <= i < |columns[1..]| ==> ColumnAcceptable(columns[1..][i])
  {
    assert forall i :: 0 < i < |columns| ==> columns[i] == columns[1..][i - 1];
  }

  /** The column-list part of `validateBoard`: non-empty, some INITIAL column,
      then each column. */
  function ValidateColumnList(columns: Option<seq<Option<BoardColumn>>>): (r: Outcome<Exception>)
    ensures r.Pass? <==> ColumnListAcceptable(columns)
  {
    match RequireNonEmpty(columns, "Board deve ter pelo menos uma coluna")
    case Failure(e) => Fail(e)
    case Success(cs) =>
      AnyInitialThrowsOnNull(cs);
      match AnyInitial(cs)
      case Failure(e) => Fail(e)
      case Success(found) =>
        if !found then
          assert !ColumnListAcceptable(columns) by {
            if forall i :: 0 <= i < |cs| ==> ColumnAcceptable(cs[i]) {
              AnyInitialWithoutNulls(cs);
            }
          }
          Fail(ValidationException("Board deve ter uma coluna inicial"))
        else
          var r := ValidateColumns(cs);
          assert r.Pass? ==> ColumnListAcceptable(columns) by {
            if r.Pass? {
              AnyInitialWithoutNulls(cs);
            }
          }
          r
  }

  /** `validateBoard`: null board, name length 2..100, non-empty column list,
      some INITIAL column, then each column, in that order. */
  function ValidateBoard(board: Option<Board>): (r: Outcome<Exception>)
    ensures r.Pass? <==> BoardAcceptable(board)
    ensures board.None? ==> r == Fail(ValidationException("Board não pode ser nulo"))
  {
    match board
    case None => Fail(ValidationException("Board não pode ser nulo"))
    case Some(b) =>
      match RequireLength(b.name, 2, 100, "Nome do board")
      case Failure(e) => Fail(e)
      case Success(_) => ValidateColumnList(b.columns)
  }

  /** The board checks run name, then column list, then INITIAL presence. */
  lemma BoardErrorOrder(b: Board)
    ensures !LengthOk(b.name.GetOr(""), 2, 100) || b.name.None? ==>
      ValidateBoard(Some(b)) == Fail(RequireLength(b.name, 2, 100, "Nome do board").error)
    ensures (b.name.Some? && LengthOk(b.name.value, 2, 100) && (b.columns.None? || b.columns.value == [])) ==>
      ValidateBoard(Some(b)) == Fail(ValidationException("Board deve ter pelo menos uma coluna"))
    ensures (b.name.Some? && LengthOk(b.name.value, 2, 100) && b.columns.Some? && b.columns.value != []
      && (forall i :: 0 <= i < |b.columns.value| ==> b.columns.value[i].Some? && !IsInitial(b.columns.value[i]))) ==>
      ValidateBoard(Some(b)) == Fail(ValidationException("Board deve ter uma coluna inicial"))
    ensures (b.name.Some? && LengthOk(b.name.value, 2, 100) && b.columns.Some? && b.columns.value != []
      && AnyInitial(b.columns.value) == Success(true)) ==>
      ValidateBoard(Some(b)) == ValidateColumns(b.columns.value)
  {
    if b.name.Some? && LengthOk(b.name.value, 2, 100) && b.columns.Some? && b.columns.value != []
      && (forall i :: 0 <= i < |b.columns.value| ==> b.columns.value[i].Some? && !IsInitial(b.columns.value[i])) {
      AnyInitialWithoutNulls(b.columns.value);
    }
  }

  /** A null entry met before any INITIAL column makes `validateBoard` throw a
      NullPointerException rather than a validation error. */
  lemma NullColumnBeforeInitialThrows(name: string, initial: BoardColumn)
    requires LengthOk(name, 2, 100) && initial.kind == Some(Initial)
    ensures ValidateBoard(Some(Board(Some(name), Some([None, Some(initial)])))) == Fail(NullPointerException)
  {
  }

  /** A card `validateCard` accepts. */
  predicate CardAcceptable(card: Option<Card>) {
    && card.Some?
    && card.value.title.Some? && LengthOk(card.value.title.value, 3, 100)
    && card.value.description.Some? && LengthOk(card.value.description.value, 5, 500)
    && card.value.column.Some?
  }

  function ValidateCard(card: Option<Card>): (r: Outcome<Exception>)
    ensures r.Pass? <==> CardAcceptable(card)
    ensures card.None? ==> r == Fail(ValidationException("Card não pode ser nulo"))
    ensures (card.Some? && card.value.title.Some? && LengthOk(card.value.title.value, 3, 100)
      && card.value.description.Some? && LengthOk(card.value.description.value, 5, 500) && card.value.column.None?) ==>
      r == Fail(ValidationException("Card deve estar associado a uma coluna"))
  {
    match card
    case None => Fail(ValidationException("Card não pode ser nulo"))
    case Some(c) =>
      match RequireLength(c.title, 3, 100, "Título do card")
      case Failure(e) => Fail(e)
      case Success(_) =>
        match RequireLength(c.description, 5, 500, "Descrição do card")
        case Failure(e) => Fail(e)
        case Success(_) =>
          match RequireNonNull(c.column, "Card deve estar associado a uma coluna")
          case Failure(e) => Fail(e)
          case Success(_) => Pass
  }

  /** The title is checked before the description. */
  lemma CardErrorOrder(c: Card)
    ensures !LengthOk(c.title.GetOr(""), 3, 100) || c.title.None? ==>
      ValidateCard(Some(c)) == Fail(RequireLength(c.title, 3, 100, "Título do card").error)
    ensures (c.title.Some? && LengthOk(c.title.value, 3, 100) && (c.description.None? || !LengthOk(c.description.value, 5, 500))) ==>
      ValidateCard(Some(c)) == Fail(RequireLength(c.description, 5, 500, "Descrição do card").error)
  {
  }

  /** `validateCardForMove`: the card rules first, then a present id. */
  function ValidateCardForMove(card: Option<Card>): (r: Outcome<Exception>)
    ensures r.Pass? <==> CardAcceptable(card) && card.value.id.Some?
    ensures !CardAcceptable(card) ==> r == ValidateCard(card)
    ensures CardAcceptable(card) && card.value.id.None? ==>
      r == Fail(ValidationException("ID do card é obrigatório para movimentação"))
  {
    match ValidateCard(card)
    case Fail(e) => Fail(e)
    case Pass =>
      match RequireNonNull(card.value.id, "ID do card é obrigatório para movimentação")
      case Failure(e) => Fail(e)
      case Success(_) => Pass
  }

  function ValidateBlockReason(reason: Option<string>): (r: Outcome<Exception>)
    ensures r.Pass? <==> reason.Some? && LengthOk(reason.value, 5, 200)
  {
    match RequireLength(reason, 5, 200, "Motivo do bloqueio")
    case Failure(e) => Fail(e)
    case Success(_) => Pass
  }

  /** A two-column board, INITIAL at 0 and FINAL at 1, is accepted: no CANCEL
      column is needed. */
  lemma InitialAndFinalBoardAccepted()
    ensures ValidateBoard(Some(Board(Some("Board de Teste"), Some([
      Some(BoardColumn(Some("Inicial"), Some(Initial), 0)),
      Some(BoardColumn(Some("Final"), Some(Final), 1))])))) == Pass
  {
    assert !IsTrimmable("Board de Teste"[0]);
    assert !IsTrimmable("Inicial"[0]);
    assert !IsTrimmable("Final"[0]);
    TwoColumnBoardAccepted("Board de Teste", "Inicial", "Final");
  }

  lemma TwoColumnBoardAccepted(name: string, initialName: string, finalName: string)
    requires LengthOk(name, 2, 100) && LengthOk(initialName, 2, 50) && LengthOk(finalName, 2, 50)
    ensures ValidateBoard(Some(Board(Some(name), Some([
      Some(BoardColumn(Some(initialName), Some(Initial), 0)),
      Some(BoardColumn(Some(finalName), Some(Final), 1))])))) == Pass
  {
    var cols := [Some(BoardColumn(Some(initialName), Some(Initial), 0)), Some(BoardColumn(Some(finalName), Some(Final), 1))];
    assert IsInitial(cols[0]);
    assert ColumnListAcceptable(Some(cols));
  }

  /** A board whose only column is FINAL lacks an INITIAL column. */
  lemma OnlyFinalColumnRejected()
    ensures ValidateBoard(Some(Board(Some("Board de Teste"), Some([
      Some(BoardColumn(Some("Final"), Some(Final), 0))])))) == Fail(ValidationException("Board deve ter uma coluna inicial"))
  {
    assert !IsTrimmable("Board de Teste"[0]);
  }

  /** A one-character board name fails with the minimum-length message. */
  lemma ShortBoardNameRejected(columns: Option<seq<Option<BoardColumn>>>)
    ensures ValidateBoard(Some(Board(Some("A"), columns)))
      == Fail(ValidationException("Nome do board deve ter pelo menos 2 caracteres"))
  {
    assert !IsTrimmable("A"[0]);
    BoardNameTooShortMessage();
  }

  lemma BoardNameTooShortMessage()
    ensures TooShortMessage("Nome do board", 2) == "Nome do board deve ter pelo menos 2 caracteres"
  {
    assert IntToString(2) == "2";
  }

  /** A two-character title fails with the minimum-length message. */
  lemma ShortCardTitleRejected(description: Option<string>, column: Option<BoardColumn>, id: Option<int>)
    ensures ValidateCard(Some(Card(id, Some("AB"), description, column)))
      == Fail(ValidationException("Título do card deve ter pelo menos 3 caracteres"))
  {
    assert !IsTrimmable("AB"[0]);
    CardTitleTooShortMessage();
  }

  lemma CardTitleTooShortMessage()
    ensures TooShortMessage("Título do card", 3) == "Título do card deve ter pelo menos 3 caracteres"
  {
    assert IntToString(3) == "3";
  }

  /** "Erro" has four characters and is too short for a block reason. */
  lemma ShortBlockReasonRejected()
    ensures ValidateBlockReason(Some("Erro"))
      == Fail(ValidationException("Motivo do bloqueio deve ter pelo menos 5 caracteres"))
  {
    assert !IsTrimmable("Erro"[0]);
    BlockReasonTooShortMessage();
  }

  lemma BlockReasonTooShortMessage()
    ensures TooShortMessage("Motivo do bloqueio", 5) == "Motivo do bloqueio deve ter pelo menos 5 caracteres"
  {
    assert IntToString(5) == "5";
  }
}

=== FILE: metrics.dfy ===
/** `MetricsCollector`: timing operations and keeping the most recent
    measurements in a bounded first-in first-out buffer. */
module Metrics {
  import opened Wrappers
  import opened Exceptions

  /** A point in time (`LocalDateTime`), kept abstract as a number. */
  type Instant = int

  /** `PerformanceMetric`; `details` is null when an exception had no message. */
  datatype Metric = Metric(operation: string, executionTimeMs: int, timestamp: Instant, details: Option<string>)

  /** Most metrics kept in memory. */
  const Capacity: nat := 1000

  /** The buffer after `recordMetric`: the metric is offered at the tail, then
      the head is polled while more than `Capacity` metrics remain. */
  method RecordMetric(buffer: seq<Metric>, metric: Metric) returns (r: seq<Metric>)
    ensures |r| == if |buffer| + 1 <= Capacity then |buffer| + 1 else Capacity
    ensures r == (buffer + [metric])[|buffer| + 1 - |r|..]
    ensures r[|r| - 1] == metric
    ensures |buffer| < Capacity ==> r == buffer + [metric]
  {
    r := buffer + [metric];
    while |r| > Capacity
      invariant |r| >= 1
      invariant |r| <= |buffer| + 1 && r == (buffer + [metric])[|buffer| + 1 - |r|..]
      invariant |r| >= Capacity || |r| == |buffer| + 1
      decreases |r|
    {
      r := r[1..];
    }
  }

  /** The `(ERROR)` name under which a failing operation is recorded. */
  function ErrorName(operationName: string): string {
    operationName + " (ERROR)"
  }

  /** `measureOperation(name, supplier)`, with the clock read before and after
      the operation (`start`, `end`) and at recording time (`now`) passed in. */
  method MeasureOperation<T>(buffer: seq<Metric>, operationName: string, operation: Result<T, Exception>, start: int, end: int, now: Instant)
    returns (result: Result<T, Exception>, buffer': seq<Metric>)
    ensures result == operation
    ensures |buffer'| == if |buffer| < Capacity then |buffer| + 1 else Capacity
    ensures operation.Success? ==> buffer'[|buffer'| - 1] == Metric(operationName, end - start, now, Some(""))
    ensures operation.Failure? ==>
      buffer'[|buffer'| - 1] == Metric(ErrorName(operationName), end - start, now, operation.error.Message())
    ensures buffer' == (buffer + [buffer'[|buffer'| - 1]])[|buffer| + 1 - |buffer'|..]
    ensures |buffer| < Capacity ==> buffer' == buffer + [buffer'[|buffer'| - 1]]
  {
    match operation {
      case Success(_) =>
        buffer' := RecordMetric(buffer, Metric(operationName, end - start, now, Some("")));
      case Failure(e) =>
        buffer' := RecordMetric(buffer, Metric(ErrorName(operationName), end - start, now, e.Message()));
    }
    result := operation;
  }

  /** `measureOperation(name, runnable)`: the supplier overload around an
      operation that yields nothing. */
  method MeasureRun(buffer: seq<Metric>, operationName: string, operation: Option<Exception>, start: int, end: int, now: Instant)
    returns (thrown: Option<Exception>, buffer': seq<Metric>)
    ensures thrown == operation
    ensures |buffer'| == if |buffer| < Capacity then |buffer| + 1 else Capacity
    ensures buffer'[|buffer'| - 1] == Metric(if operation.None? then operationName else ErrorName(operationName), end - start, now,
        if operation.None? then Some("") else operation.value.Message())
    ensures buffer' == (buffer + [buffer'[|buffer'| - 1]])[|buffer| + 1 - |buffer'|..]
  {
    var supplier: Result<(), Exception> := if operation.None? then Success(()) else Failure(operation.value);
    var result;
    result, buffer' := MeasureOperation(buffer, operationName, supplier, start, end, now);
    thrown := if result.Success? then None else Some(result.error);
  }
}

=== FILE: metrics_report.dfy ===
/** The integer aggregates of `MetricsReport`, computed from a snapshot of the
    collector's buffer. */
module MetricsReport {
  import opened Metrics

  /** The integer part of the per-operation `DoubleSummaryStatistics`. */
  datatype OperationStats = OperationStats(count: nat, max: int, min: int)

  datatype Report = Report(
    totalOperations: int,
    maxExecutionTime: int,
    minExecutionTime: int,
    operationStats: map<string, OperationStats>,
    slowestOperations: seq<Metric>)

  /** Number of entries in the slowest-operations list. */
  const SlowestLimit: nat := 10

  function Time(m: Metric): int { m.executionTimeMs }

  // Maximum and minimum

  /** Largest execution time of a non-empty list. */
  function MaxTime(s: seq<Metric>): (r: int)
    requires s != []
    ensures forall i :: 0 <= i < |s| ==> Time(s[i]) <= r
    ensures exists i :: 0 <= i < |s| && Time(s[i]) == r
  {
    if |s| == 1 then Time(s[0])
    else
      var m := MaxTime(s[..|s| - 1]);
      assert forall i :: 0 <= i < |s| - 1 ==> s[..|s| - 1][i] == s[i];
      if Time(s[|s| - 1]) > m then Time(s[|s| - 1]) else m
  }

  /** Smallest execution time of a non-empty list. */
  function MinTime(s: seq<Metric>): (r: int)
    requires s != []
    ensures forall i :: 0 <= i < |s| ==> r <= Time(s[i])
    ensures exists i :: 0 <= i < |s| && Time(s[i]) == r
  {
    if |s| == 1 then Time(s[0])
    else
      var m := MinTime(s[..|s| - 1]);
      assert forall i :: 0 <= i < |s| - 1 ==> s[..|s| - 1][i] == s[i];
      if Time(s[|s| - 1]) < m then Time(s[|s| - 1]) else m
  }

  // Grouping by operation name

  /** The metrics recorded under `name`, in order. */
  function Named(s: seq<Metric>, name: string): (r: seq<Metric>)
    ensures |r| <= |s|
    ensures forall i :: 0 <= i < |r| ==> r[i].operation == name && r[i] in s
  {
    if s == [] then []
    else
      var prefix := Named(s[..|s| - 1], name);
      if s[|s| - 1].operation == name then prefix + [s[|s| - 1]] else prefix
  }

  /** Adds one metric to the running per-operation statistics. */
  function Accumulate(stats: map<string, OperationStats>, m: Metric): map<string, OperationStats> {
    if m.operation in stats then
      var st := stats[m.operation];
      stats[m.operation := OperationStats(st.count + 1,
        if Time(m) > st.max then Time(m) else st.max,
        if Time(m) < st.min then Time(m) else st.min)]
    else stats[m.operation := OperationStats(1, Time(m), Time(m))]
  }

  /** `groupingBy(getOperation, summarizingDouble(getExecutionTimeMs))`, as
      the collector accumulates it, element by element. */
  function GroupByOperation(s: seq<Metric>): map<string, OperationStats> {
    if s == [] then map[] else Accumulate(GroupByOperation(s[..|s| - 1]), s[|s| - 1])
  }

  /** The names that occur in the list. */
  function Operations(s: seq<Metric>): set<string> {
    set i | 0 <= i < |s| :: s[i].operation
  }

  /** The grouping has one entry per operation name, and that entry counts the
      metrics of that name and holds their largest and smallest time. */
  lemma {:induction false} GroupByOperationStats(s: seq<Metric>)
    ensures GroupByOperation(s).Keys == Operations(s)
    ensures forall name :: name in GroupByOperation(s) ==>
      Named(s, name) != [] &&
      GroupByOperation(s)[name] == OperationStats(|Named(s, name)|, MaxTime(Named(s, name)), MinTime(Named(s, name)))
    decreases |s|
  {
    if s != [] {
      var p := s[..|s| - 1];
      var m := s[|s| - 1];
      GroupByOperationStats(p);
      assert Operations(s) == Operations(p) + {m.operation} by {
        assert forall i :: 0 <= i < |p| ==> p[i] == s[i];
      }
      forall name | name in GroupByOperation(s)
        ensures Named(s, name) != []
        ensures GroupByOperation(s)[name] == OperationStats(|Named(s, name)|, MaxTime(Named(s, name)), MinTime(Named(s, name)))
      {
        if name == m.operation {
          if name in GroupByOperation(p) {
            AccumulateKnown(s);
          } else {
            assert name !in Operations(p);
            NamedAbsent(p, name);
            AccumulateNew(s);
          }
        } else {
          assert Named(s, name) == Named(p, name);
        }
      }
    }
  }

  /** No metric of an absent name is selected. */
  lemma NamedAbsent(s: seq<Metric>, name: string)
    requires name !in Operations(s)
    ensures Named(s, name) == []
  {
  }

  /** A metric whose name has no entry yet starts a fresh one. */
  lemma AccumulateNew(s: seq<Metric>)
    requires s != []
    requires Named(s[..|s| - 1], s[|s| - 1].operation) == []
    requires s[|s| - 1].operation !in GroupByOperation(s[..|s| - 1])
    ensures var name := s[|s| - 1].operation;
      Named(s, name) == [s[|s| - 1]] &&
      GroupByOperation(s)[name] == OperationStats(|Named(s, name)|, MaxTime(Named(s, name)), MinTime(Named(s, name)))
  {
  }

  /** A metric whose name has an entry updates its count, maximum and minimum. */
  lemma AccumulateKnown(s: seq<Metric>)
    requires s != []
    requires var p, name := s[..|s| - 1], s[|s| - 1].operation;
      && name in GroupByOperation(p) && Named(p, name) != []
      && GroupByOperation(p)[name] == OperationStats(|Named(p, name)|, MaxTime(Named(p, name)), MinTime(Named(p, name)))
    ensures var name := s[|s| - 1].operation;
      Named(s, name) != [] &&
      GroupByOperation(s)[name] == OperationStats(|Named(s, name)|, MaxTime(Named(s, name)), MinTime(Named(s, name)))
  {
    var p, m := s[..|s| - 1], s[|s| - 1];
    var q := Named(p, m.operation);
    assert Named(s, m.operation) == q + [m];
    assert (q + [m])[..|q|] == q;
  }

  // Ordering by execution time

  /** Non-increasing execution time. */
  predicate SortedDesc(s: seq<Metric>) {
    forall i, j :: 0 <= i < j < |s| ==> Time(s[i]) >= Time(s[j])
  }

  /** Puts `m` in front of the first entry that is not slower, so that among
      equal times the earlier metric stays first. */
  function Insert(m: Metric, s: seq<Metric>): seq<Metric> {
    if s == [] || Time(s[0]) <= Time(m) then [m] + s else [s[0]] + Insert(m, s[1..])
  }

  /** `sorted((m1, m2) -> Long.compare(m2.time, m1.time))`: a stable sort by
      descending execution time. */
  function SortByTimeDesc(s: seq<Metric>): seq<Metric> {
    if s == [] then [] else Insert(s[0], SortByTimeDesc(s[1..]))
  }

  /** Inserting adds exactly the one metric. */
  lemma {:induction false} InsertPermutes(m: Metric, s: seq<Metric>)
    ensures multiset(Insert(m, s)) == multiset(s) + multiset{m}
    ensures |Insert(m, s)| == |s| + 1
    decreases |s|
  {
    if s != [] && Time(s[0]) > Time(m) {
      assert s == [s[0]] + s[1..];
      InsertPermutes(m, s[1..]);
    }
  }

  /** Inserting into a sorted list keeps it sorted. */
  lemma {:induction false} InsertKeepsOrder(m: Metric, s: seq<Metric>)
    requires SortedDesc(s)
    ensures SortedDesc(Insert(m, s))
    decreases |s|
  {
    if s != [] && Time(s[0]) > Time(m) {
      assert SortedDesc(s[1..]);
      InsertKeepsOrder(m, s[1..]);
      InsertPermutes(m, s[1..]);
      var t := Insert(m, s[1..]);
      forall i | 0 <= i < |t| ensures Time(t[i]) <= Time(s[0]) {
        assert t[i] in multiset(t);
        if t[i] != m {
          assert t[i] in multiset(s[1..]);
          var k :| 0 <= k < |s[1..]| && s[1..][k] == t[i];
          assert s[k + 1] == t[i];
        }
      }
      ConsSorted(s[0], t);
    } else {
      forall i | 0 <= i < |s| ensures Time(s[i]) <= Time(m) {
        if i > 0 {
          assert Time(s[0]) >= Time(s[i]);
        }
      }
      ConsSorted(m, s);
    }
  }

  /** A list stays sorted when an entry no faster than all of it goes in front. */
  lemma ConsSorted(h: Metric, t: seq<Metric>)
    requires SortedDesc(t)
    requires forall i :: 0 <= i < |t| ==> Time(t[i]) <= Time(h)
    ensures SortedDesc([h] + t)
  {
    forall i, j | 0 <= i < j < |[h] + t| ensures Time(([h] + t)[i]) >= Time(([h] + t)[j]) {
      if i > 0 {
        assert ([h] + t)[i] == t[i - 1];
      }
      assert ([h] + t)[j] == t[j - 1];
    }
  }

  /** The sort yields a permutation of its input, slowest first. */
  lemma {:induction false} SortByTimeDescSpec(s: seq<Metric>)
    ensures SortedDesc(SortByTimeDesc(s))
    ensures multiset(SortByTimeDesc(s)) == multiset(s)
    ensures |SortByTimeDesc(s)| == |s|
    decreases |s|
  {
    if s != [] {
      SortByTimeDescSpec(s[1..]);
      InsertKeepsOrder(s[0], SortByTimeDesc(s[1..]));
      InsertPermutes(s[0], SortByTimeDesc(s[1..]));
      assert s == [s[0]] + s[1..];
    }
  }

  /** The first (at most) ten of the sorted list. */
  function Slowest(s: seq<Metric>): seq<Metric> {
    var sorted := SortByTimeDesc(s);
    if |sorted| <= SlowestLimit then sorted else sorted[..SlowestLimit]
  }

  /** The slowest list holds `min(10, n)` metrics of the snapshot, slowest
      first, and no metric left out is slower than the last one kept. */
  lemma SlowestSpec(s: seq<Metric>)
    ensures |Slowest(s)| == if |s| <= SlowestLimit then |s| else SlowestLimit
    ensures SortedDesc(Slowest(s))
    ensures multiset(Slowest(s)) <= multiset(s)
    ensures forall m :: m in multiset(s) - multiset(Slowest(s)) ==> Time(m) <= Time(Slowest(s)[|Slowest(s)| - 1])
  {
    var sorted := SortByTimeDesc(s);
    SortByTimeDescSpec(s);
    if |sorted| > SlowestLimit {
      var kept := sorted[..SlowestLimit];
      var rest := sorted[SlowestLimit..];
      assert sorted == kept + rest;
      assert multiset(sorted) == multiset(kept) + multiset(rest);
      forall m | m in multiset(s) - multiset(kept) ensures Time(m) <= Time(kept[|kept| - 1]) {
        assert m in multiset(rest);
        var k :| 0 <= k < |rest| && rest[k] == m;
        assert sorted[SlowestLimit + k] == m;
      }
    }
  }

  /** `new MetricsReport(metrics)` without the floating-point averages. */
  function MakeReport(metrics: seq<Metric>): (r: Report)
    ensures r.totalOperations == |metrics|
  {
    if metrics == [] then Report(0, 0, 0, map[], [])
    else Report(|metrics|, MaxTime(metrics), MinTime(metrics), GroupByOperation(metrics), Slowest(metrics))
  }

  /** Everything the report states about its snapshot. */
  lemma MakeReportSpec(metrics: seq<Metric>)
    ensures var r := MakeReport(metrics);
      && (metrics == [] ==> r == Report(0, 0, 0, map[], []))
      && (metrics != [] ==>
        && (forall i :: 0 <= i < |metrics| ==> r.minExecutionTime <= Time(metrics[i]) <= r.maxExecutionTime)
        && (exists i :: 0 <= i < |metrics| && Time(metrics[i]) == r.maxExecutionTime)
        && (exists i :: 0 <= i < |metrics| && Time(metrics[i]) == r.minExecutionTime))
      && r.operationStats.Keys == Operations(metrics)
      && (forall name :: name in r.operationStats ==> r.operationStats[name].count == |Named(metrics, name)|)
      && |r.slowestOperations| == (if |metrics| <= SlowestLimit then |metrics| else SlowestLimit)
      && SortedDesc(r.slowestOperations)
      && multiset(r.slowestOperations) <= multiset(metrics)
      && (metrics != [] ==> forall m :: m in multiset(metrics) - multiset(r.slowestOperations) ==>
        Time(m) <= Time(r.slowestOperations[|r.slowestOperations| - 1]))
  {
    GroupByOperationStats(metrics);
    SlowestSpec(metrics);
  }
}

=== FILE: paging.dfy ===
/** `SearchResult`: one page of a search together with the paging flags. */
module Paging {
  import opened Wrappers
  import opened JavaInt

  /** `totalCount` is a `long`, `pageSize` and `currentPage` are `int`s. */
  datatype SearchResult<T> = SearchResult(
    items: Option<seq<T>>,
    totalCount: int,
    pageSize: int,
    currentPage: int,
    hasNext: bool,
    hasPrevious: bool)

  /** `of` as written: `currentPage + 1` is evaluated in `int` arithmetic and
      only then widened, so it wraps to `INT_MIN` when `currentPage` is
      `INT_MAX`; the product itself cannot overflow a `long`. */
  function OfAsWritten<T>(items: Option<seq<T>>, totalCount: int, pageSize: int, currentPage: int): (r: SearchResult<T>)
    requires IsLong(totalCount) && IsInt(pageSize) && IsInt(currentPage)
    ensures r.items == items && r.totalCount == totalCount && r.pageSize == pageSize && r.currentPage == currentPage
    ensures r.hasPrevious <==> currentPage > 0
  {
    var hasNext := WrapInt(currentPage + 1) * pageSize < totalCount;
    SearchResult(items, totalCount, pageSize, currentPage, hasNext, currentPage > 0)
  }

  /** `of` with the page number widened before the increment, which is what
      the `long` cast is there for. */
  function Of<T>(items: Option<seq<T>>, totalCount: int, pageSize: int, currentPage: int): (r: SearchResult<T>)
    requires IsLong(totalCount) && IsInt(pageSize) && IsInt(currentPage)
    ensures r.items == items && r.totalCount == totalCount && r.pageSize == pageSize && r.currentPage == currentPage
    ensures r.hasPrevious <==> currentPage > 0
    ensures currentPage < INT_MAX ==> r == OfAsWritten(items, totalCount, pageSize, currentPage)
  {
    var hasNext := (currentPage + 1) * pageSize < totalCount;
    SearchResult(items, totalCount, pageSize, currentPage, hasNext, currentPage > 0)
  }

  /** Exact ceiling of `a / b`. */
  function CeilDiv(a: int, b: int): (q: int)
    requires b != 0
    ensures b > 0 ==> (q - 1) * b < a <= q * b
    ensures b < 0 ==> q * b <= a < (q - 1) * b
  {
    if b > 0 then -((-a) / b) else -(a / (-b))
  }

  /** Java's narrowing of a `double` to `int`: values beyond the range stick
      to its ends. */
  function SaturateInt(x: int): (r: int)
    ensures IsInt(r)
    ensures IsInt(x) ==> r == x
    ensures x > INT_MAX ==> r == INT_MAX
    ensures x < INT_MIN ==> r == INT_MIN
  {
    if x > INT_MAX then INT_MAX else if x < INT_MIN then INT_MIN else x
  }

  /** `getTotalPages`: the ceiling of `totalCount / pageSize` narrowed to
      `int`; for a zero page size the `double` division gives an infinity
      (narrowed to an end of the range) or, for `0 / 0`, NaN (narrowed to 0). */
  function TotalPages(totalCount: int, pageSize: int): (r: int)
    ensures IsInt(r)
    ensures pageSize == 0 ==> (r > 0 <==> totalCount > 0) && (r < 0 <==> totalCount < 0)
    ensures pageSize > 0 && IsInt(CeilDiv(totalCount, pageSize)) ==>
      (r - 1) * pageSize < totalCount <= r * pageSize
  {
    if pageSize == 0 then
      if totalCount > 0 then INT_MAX else if totalCount < 0 then INT_MIN else 0
    else SaturateInt(CeilDiv(totalCount, pageSize))
  }

  /** `isEmpty`: no list, or a list without elements. */
  predicate IsEmpty<T>(r: SearchResult<T>): (b: bool)
    ensures b <==> |r.items.GetOr([])| == 0
  {
    r.items.None? || r.items.value == []
  }

  /** With a positive page size there is a next page exactly when a page after
      the current one starts before the end, that is when the next page number
      is below the (exact) page count. */
  lemma {:induction false} HasNextIffMorePages<T>(items: Option<seq<T>>, totalCount: int, pageSize: int, currentPage: int)
    requires IsLong(totalCount) && IsInt(pageSize) && IsInt(currentPage) && pageSize > 0
    ensures Of(items, totalCount, pageSize, currentPage).hasNext <==> currentPage + 1 < CeilDiv(totalCount, pageSize)
  {
    var q := CeilDiv(totalCount, pageSize);
    var n := currentPage + 1;
    if n < q {
      MulLe(n, q - 1, pageSize);
    } else {
      MulLe(q, n, pageSize);
    }
  }

  lemma MulLe(a: int, b: int, c: int)
    requires a <= b && c > 0
    ensures a * c <= b * c
  {
  }

  /** While the page count fits in an `int`, `getTotalPages` is it, so `hasNext`
      says the next page number is below `getTotalPages`. */
  lemma HasNextIffBelowTotalPages<T>(items: Option<seq<T>>, totalCount: int, pageSize: int, currentPage: int)
    requires IsLong(totalCount) && IsInt(pageSize) && IsInt(currentPage) && pageSize > 0
    requires IsInt(CeilDiv(totalCount, pageSize))
    ensures Of(items, totalCount, pageSize, currentPage).hasNext <==> currentPage + 1 < TotalPages(totalCount, pageSize)
  {
    HasNextIffMorePages(items, totalCount, pageSize, currentPage);
  }

  /** The page count for a positive page size: the least `q` whose `q` pages
      cover every result. */
  lemma {:induction false} CeilDivIsLeast(a: int, b: int, q: int)
    requires b > 0 && a <= q * b
    ensures CeilDiv(a, b) <= q
  {
    var c := CeilDiv(a, b);
    if c > q {
      MulLe(q, c - 1, b);
    }
  }

  /** As written, the last possible page of an empty search reports a next
      page: `INT_MAX + 1` wraps to `INT_MIN`, and `INT_MIN * 10 < 0`. */
  lemma WrapReportsNextPage()
    ensures IsEmpty(OfAsWritten<int>(Some([]), 0, 10, INT_MAX))
    ensures OfAsWritten<int>(Some([]), 0, 10, INT_MAX).hasNext
    ensures !Of<int>(Some([]), 0, 10, INT_MAX).hasNext
    ensures TotalPages(0, 10) == 0
  {
    assert WrapInt(INT_MAX + 1) == INT_MIN;
  }
}

=== FILE: search_criteria.dfy ===
/** `CardSearchCriteria`: the optional filters of a card search and the
    predicates saying which of them are in force. */
module SearchCriteria {
  import opened Wrappers
  import opened Text

  /** A point in time (`LocalDateTime`), kept abstract as a number. */
  type DateTime = int

  /** Every filter is nullable; `limit` and `offset` are plain `int`s. */
  datatype Criteria = Criteria(
    titleContains: Option<string>,
    descriptionContains: Option<string>,
    boardColumnIds: Option<seq<int>>,
    boardIds: Option<seq<int>>,
    createdAfter: Option<DateTime>,
    createdBefore: Option<DateTime>,
    isBlocked: Option<bool>,
    blockReasonContains: Option<string>,
    limit: int,
    offset: int)

  /** What `builder().build()` yields: no filter, and `int` fields at zero. */
  function Blank(): (c: Criteria)
    ensures NoFilter(c) && c.limit == 0 && c.offset == 0
  {
    Criteria(None, None, None, None, None, None, None, None, 0, 0)
  }

  /** `empty()`: no filter, a page of 50 from the start. */
  function Empty(): (c: Criteria)
    ensures NoFilter(c) && c.limit == 50 && c.offset == 0
  {
    Blank().(limit := 50)
  }

  /** Every nullable field is absent. */
  predicate NoFilter(c: Criteria) {
    && c.titleContains.None? && c.descriptionContains.None?
    && c.boardColumnIds.None? && c.boardIds.None?
    && c.createdAfter.None? && c.createdBefore.None?
    && c.isBlocked.None? && c.blockReasonContains.None?
  }

  /** A text filter that is present and not empty after trimming (blank in
      Java's sense is exactly "empty after `trim()`", see `TextGivenIff`). */
  predicate TextGiven(text: Option<string>) {
    text.Some? && !IsBlank(text.value)
  }

  /** An id list that is present and not empty. */
  predicate IdsGiven(ids: Option<seq<int>>) {
    ids.Some? && ids.value != []
  }

  predicate HasTextFilter(c: Criteria) {
    TextGiven(c.titleContains) || TextGiven(c.descriptionContains)
  }

  predicate HasDateFilter(c: Criteria) {
    c.createdAfter.Some? || c.createdBefore.Some?
  }

  predicate HasColumnFilter(c: Criteria) {
    IdsGiven(c.boardColumnIds)
  }

  predicate HasBoardFilter(c: Criteria) {
    IdsGiven(c.boardIds)
  }

  predicate HasBlockFilter(c: Criteria) {
    c.isBlocked.Some? || TextGiven(c.blockReasonContains)
  }

  /** A text counts as a filter exactly when it is present and its trimmed
      form is not empty, which is how the predicates are written. */
  lemma TextGivenIff(text: Option<string>)
    ensures TextGiven(text) <==> text.Some? && Trim(text.value) != []
  {
    if text.Some? {
      TrimEmptyIffBlank(text.value);
    }
  }

  /** Criteria without any filter satisfy none of the predicates. */
  lemma NoFilterHasNone(c: Criteria)
    requires NoFilter(c)
    ensures !HasTextFilter(c) && !HasDateFilter(c) && !HasColumnFilter(c) && !HasBoardFilter(c) && !HasBlockFilter(c)
  {
  }

  /** Whitespace-only text is no filter, while `isBlocked == false` is one. */
  lemma BlankTextIsNoFilter()
    ensures !HasTextFilter(Empty().(titleContains := Some("   "), descriptionContains := Some("")))
    ensures HasBlockFilter(Empty().(isBlocked := Some(false)))
    ensures !HasBlockFilter(Empty().(blockReasonContains := Some(" \t ")))
  {
  }
}

=== FILE: text.dfy ===
/** Java integer widths and the arithmetic the modelled code performs on them. */
module JavaInt {
  const INT_MIN: int := -0x8000_0000
  const INT_MAX: int := 0x7fff_ffff
  const LONG_MIN: int := -0x8000_0000_0000_0000
  const LONG_MAX: int := 0x7fff_ffff_ffff_ffff

  predicate IsInt(x: int) { INT_MIN <= x <= INT_MAX }
  predicate IsLong(x: int) { LONG_MIN <= x <= LONG_MAX }

  /** Two's-complement wrap-around of a 32-bit `int` result. */
  function WrapInt(x: int): (r: int)
    ensures IsInt(r)
    ensures (r - x) % 0x1_0000_0000 == 0
    ensures IsInt(x) ==> r == x
  {
    (x - INT_MIN) % 0x1_0000_0000 + INT_MIN
  }

  /** Java's `int` division: the quotient is truncated toward zero (its magnitude
      is the quotient of the magnitudes, its sign the product of the signs), and
      `INT_MIN / -1` wraps back to `INT_MIN`. */
  function IntDiv(a: int, b: int): (q: int)
    requires IsInt(a) && IsInt(b) && b != 0
    ensures IsInt(q)
    ensures a == INT_MIN && b == -1 ==> q == INT_MIN
    ensures !(a == INT_MIN && b == -1) ==> Abs(q) == Quotient(Abs(a), Abs(b))
    ensures q != 0 && !(a == INT_MIN && b == -1) ==> (q < 0 <==> (a < 0) != (b < 0))
  {
    if a == INT_MIN && b == -1 then INT_MIN
    else
      var m: int := Quotient(Abs(a), Abs(b));
      if (a < 0) == (b < 0) then m else -m
  }

  /** For a non-negative dividend and a positive divisor, truncation and
      Dafny's Euclidean division agree. */
  lemma IntDivNonNegative(a: int, b: int)
    requires IsInt(a) && IsInt(b) && a >= 0 && b > 0
    ensures IntDiv(a, b) == a / b
  {
  }

  /** The floor quotient locates a non-negative number between two multiples. */
  lemma DivBetweenMultiples(a: int, b: int)
    requires a >= 0 && b > 0
    ensures (a / b) * b <= a < (a / b + 1) * b
    ensures a / b > 0 <==> a >= b
  {
  }

  /** Quotient of two magnitudes; it never exceeds the dividend, and at most
      half of it once the divisor is two or more. */
  function Quotient(x: nat, y: nat): (m: nat)
    requires y > 0
    ensures m <= x
    ensures y >= 2 ==> m <= x / 2
  {
    QuotientBound(x, y);
    x / y
  }

  lemma QuotientBound(x: nat, y: nat)
    requires y > 0
    ensures x / y <= x
    ensures y >= 2 ==> x / y <= x / 2
  {
    MulMono(x / y, y);
    if y >= 2 {
      MulMono(x / y, 2);
      assert (x / y) * y >= (x / y) * 2;
    }
  }

  lemma MulMono(a: nat, b: nat)
    requires b >= 1
    ensures a * b >= a
  {
  }

  function Abs(x: int): nat { if x < 0 then -x else x }
}

/** String operations of `java.lang.String`, over strings as sequences of characters. */
module Text {
  import opened Wrappers
  import JavaInt

  /** `String.trim()` removes every character whose code is at most U+0020. */
  predicate IsTrimmable(c: char) { c <= ' ' }

  /** Blank in Java's sense: nothing is left after `trim()`. */
  predicate IsBlank(s: string) {
    forall i :: 0 <= i < |s| ==> IsTrimmable(s[i])
  }

  /** Number of leading trimmable characters. */
  function LeadingTrimmable(s: string): (n: nat)
    ensures n <= |s|
    ensures forall i :: 0 <= i < n ==> IsTrimmable(s[i])
    ensures n < |s| ==> !IsTrimmable(s[n])
    decreases |s|
  {
    if s != [] && IsTrimmable(s[0]) then 1 + LeadingTrimmable(s[1..]) else 0
  }

  /** Where the run of trailing trimmable characters begins. */
  function TrailingStart(s: string): (n: nat)
    ensures n <= |s|
    ensures forall i :: n <= i < |s| ==> IsTrimmable(s[i])
    ensures n > 0 ==> !IsTrimmable(s[n - 1])
    decreases |s|
  {
    if s != [] && IsTrimmable(s[|s| - 1]) then TrailingStart(s[..|s| - 1]) else |s|
  }

  /** Drops the leading trimmable characters. */
  function TrimStart(s: string): (r: string)
    ensures |r| <= |s| && r == s[|s| - |r|..]
    ensures forall i :: 0 <= i < |s| - |r| ==> IsTrimmable(s[i])
    ensures r != [] ==> !IsTrimmable(r[0])
  {
    s[LeadingTrimmable(s)..]
  }

  /** Drops the trailing trimmable characters. */
  function TrimEnd(s: string): (r: string)
    ensures |r| <= |s| && r == s[..|r|]
    ensures forall i :: |r| <= i < |s| ==> IsTrimmable(s[i])
    ensures r != [] ==> !IsTrimmable(r[|r| - 1])
  {
    s[..TrailingStart(s)]
  }

  /** `String.trim()`. */
  function Trim(s: string): string {
    TrimEnd(TrimStart(s))
  }

  /** Trim keeps a contiguous middle part of its input and everything it cuts
      away is trimmable. */
  lemma TrimIsMiddle(s: string)
    ensures var r, a := Trim(s), |s| - |TrimStart(s)|;
      && a + |r| <= |s| && r == s[a..a + |r|]
      && (forall i :: 0 <= i < a ==> IsTrimmable(s[i]))
      && (forall i :: a + |r| <= i < |s| ==> IsTrimmable(s[i]))
  {
    var t := TrimStart(s);
    var r := TrimEnd(t);
    var a := |s| - |t|;
    assert t == s[a..];
    assert r == t[..|r|];
    assert r == s[a..a + |r|];
    forall i | a + |r| <= i < |s| ensures IsTrimmable(s[i]) {
      var k := i - a;
      assert s[i] == t[k];
      assert |r| <= k < |t|;
    }
  }

  /** What Trim keeps starts and ends with a non-trimmable character. */
  lemma TrimEnds(s: string)
    ensures Trim(s) != [] ==> !IsTrimmable(Trim(s)[0]) && !IsTrimmable(Trim(s)[|Trim(s)| - 1])
  {
    var t := TrimStart(s);
    var r := TrimEnd(t);
    if r != [] {
      assert r[0] == t[0];
    }
  }

  /** The trimmed string is empty exactly when the input is blank. */
  lemma TrimEmptyIffBlank(s: string)
    ensures Trim(s) == [] <==> IsBlank(s)
  {
    var t := TrimStart(s);
    if Trim(s) == [] {
      assert t == [];
    }
  }

  /** Trimming twice is trimming once. */
  lemma TrimIdempotent(s: string)
    ensures Trim(Trim(s)) == Trim(s)
  {
    var r := Trim(s);
    if r != [] {
      assert TrimStart(r) == r;
      assert TrimEnd(r) == r;
    }
  }

  /** A string that starts and ends with a kept character is its own trim. */
  lemma TrimKeeps(s: string)
    requires s != [] && !IsTrimmable(s[0]) && !IsTrimmable(s[|s| - 1])
    ensures Trim(s) == s
  {
  }

  /** ASCII-only lower-casing of one character. */
  function LowerChar(c: char): char {
    if 'A' <= c <= 'Z' then (c as int - 'A' as int + 'a' as int) as char else c
  }

  /** `String.toLowerCase()` on the ASCII letters. */
  function ToLower(s: string): (r: string)
    ensures |r| == |s|
    ensures forall i :: 0 <= i < |s| ==> r[i] == LowerChar(s[i])
  {
    seq(|s|, i requires 0 <= i < |s| => LowerChar(s[i]))
  }

  /** `String.startsWith(prefix)`. */
  predicate StartsWith(s: string, prefix: string) {
    |prefix| <= |s| && s[..|prefix|] == prefix
  }

  /** `String.replace(target, replacement)` for a non-empty target: scans left to
      right and replaces non-overlapping occurrences, never re-scanning the text
      it has just produced. */
  function ReplaceAll(s: string, target: string, replacement: string): string
    requires target != []
    decreases |s|
  {
    if |s| < |target| then s
    else if s[..|target|] == target then replacement + ReplaceAll(s[|target|..], target, replacement)
    else [s[0]] + ReplaceAll(s[1..], target, replacement)
  }

  /** Replacing a single character by a different one leaves no occurrence of it. */
  lemma {:induction false} ReplaceCharRemovesIt(s: string, c: char, d: char)
    requires c != d
    ensures c !in ReplaceAll(s, [c], [d])
    decreases |s|
  {
    if |s| >= 1 {
      ReplaceCharRemovesIt(s[1..], c, d);
    }
  }

  /** A target holding a character the text lacks never matches. */
  lemma {:induction false} ReplaceMissing(s: string, target: string, replacement: string, c: char)
    requires c in target && c !in s
    ensures ReplaceAll(s, target, replacement) == s
    decreases |s|
  {
    if |s| >= |target| {
      ReplaceMissing(s[1..], target, replacement, c);
      assert [s[0]] + s[1..] == s;
    }
  }

  /** Replacing a single character distributes over concatenation. */
  lemma {:induction false} ReplaceCharAppend(a: string, b: string, c: char, d: char)
    ensures ReplaceAll(a + b, [c], [d]) == ReplaceAll(a, [c], [d]) + ReplaceAll(b, [c], [d])
    decreases |a|
  {
    if a == [] {
      assert a + b == b;
    } else {
      assert (a + b)[1..] == a[1..] + b;
      assert (a + b)[..1] == a[..1];
      ReplaceCharAppend(a[1..], b, c, d);
    }
  }

  /** Replacing the only occurrence of a character. */
  lemma ReplaceSingleChar(a: string, b: string, c: char, d: char)
    requires c !in a && c !in b
    ensures ReplaceAll(a + [c] + b, [c], [d]) == a + [d] + b
  {
    var x := a + [c];
    ReplaceCharAppend(x, b, c, d);
    ReplaceCharAppend(a, [c], c, d);
    ReplaceMissing(a, [c], [d], c);
    ReplaceMissing(b, [c], [d], c);
    assert ReplaceAll([c], [c], [d]) == [d] by {
      assert [c][..1] == [c] && [c][1..] == [];
    }
  }

  /** Replacing one character maps the text character by character. */
  lemma {:induction false} ReplaceCharPointwise(s: string, c: char, d: char)
    ensures |ReplaceAll(s, [c], [d])| == |s|
    ensures forall i :: 0 <= i < |s| ==> ReplaceAll(s, [c], [d])[i] == if s[i] == c then d else s[i]
    decreases |s|
  {
    if |s| >= 1 {
      ReplaceCharPointwise(s[1..], c, d);
    }
  }

  /** Number of occurrences of `c` in `s`. */
  function Count(s: string, c: char): nat {
    if s == [] then 0 else (if s[0] == c then 1 else 0) + Count(s[1..], c)
  }

  lemma {:induction false} CountAppend(a: string, b: string, c: char)
    ensures Count(a + b, c) == Count(a, c) + Count(b, c)
    decreases |a|
  {
    if a == [] {
      assert a + b == b;
    } else {
      assert (a + b)[0] == a[0];
      assert (a + b)[1..] == a[1..] + b;
      CountAppend(a[1..], b, c);
    }
  }

  lemma {:induction false} CountAbsent(s: string, c: char)
    requires c !in s
    ensures Count(s, c) == 0
    decreases |s|
  {
    if s != [] {
      CountAbsent(s[1..], c);
    }
  }

  /** `String.join(separator, parts)`. */
  function Join(parts: seq<string>, separator: string): string {
    if parts == [] then ""
    else if |parts| == 1 then parts[0]
    else parts[0] + separator + Join(parts[1..], separator)
  }

  /** Sum of the occurrences of `c` over a list of strings. */
  function CountAll(parts: seq<string>, c: char): nat {
    if parts == [] then 0 else Count(parts[0], c) + CountAll(parts[1..], c)
  }

  /** Joining with a separator free of `c` neither adds nor loses any `c`. */
  lemma {:induction false} CountJoin(parts: seq<string>, separator: string, c: char)
    requires c !in separator
    ensures Count(Join(parts, separator), c) == CountAll(parts, c)
    decreases |parts|
  {
    if |parts| > 1 {
      CountJoin(parts[1..], separator, c);
      CountAbsent(separator, c);
      CountAppend(parts[0] + separator, Join(parts[1..], separator), c);
      CountAppend(parts[0], separator, c);
    } else if |parts| == 1 {
      assert parts[1..] == [];
    }
  }

  predicate IsDigit(c: char) { '0' <= c <= '9' }

  function DigitChar(d: nat): char
    requires d < 10
  {
    ('0' as int + d) as char
  }

  /** Decimal text of a natural number, most significant digit first. */
  function NatToString(n: nat): (r: string)
    ensures r != []
    ensures forall i :: 0 <= i < |r| ==> IsDigit(r[i])
    decreases n
  {
    if n < 10 then [DigitChar(n)] else NatToString(n / 10) + [DigitChar(n % 10)]
  }

  /** `Integer.toString` / string concatenation of an integer. */
  function IntToString(i: int): string {
    if i < 0 then "-" + NatToString(-i) else NatToString(i)
  }

  /** Value of a string of decimal digits. */
  function DigitsValue(s: string): nat
    requires forall i :: 0 <= i < |s| ==> IsDigit(s[i])
  {
    if s == [] then 0
    else
      assert IsDigit(s[|s| - 1]);
      DigitsValue(s[..|s| - 1]) * 10 + (s[|s| - 1] as int - '0' as int)
  }

  /** Reading back the decimal text of `n` gives `n`. */
  lemma {:induction false} DigitsValueOfNatToString(n: nat)
    ensures DigitsValue(NatToString(n)) == n
    decreases n
  {
    if n >= 10 {
      var s := NatToString(n);
      assert s[..|s| - 1] == NatToString(n / 10);
      DigitsValueOfNatToString(n / 10);
    }
  }

  predicate AllDigits(s: string) {
    forall i :: 0 <= i < |s| ==> IsDigit(s[i])
  }

  /** `Integer.parseInt(s)` over ASCII digits: an optional sign, then one or more
      digits, and the value must fit in an `int`; anything else is a format error. */
  function ParseInt(s: string): (r: Option<int>)
    ensures r.Some? ==> JavaInt.IsInt(r.value)
    ensures r.Some? ==> s != [] && (IsDigit(s[0]) || s[0] == '-' || s[0] == '+')
  {
    var signed := s != [] && (s[0] == '-' || s[0] == '+');
    var digits := if signed then s[1..] else s;
    if digits == [] || !AllDigits(digits) then None
    else
      var magnitude: int := DigitsValue(digits);
      var v := if s[0] == '-' then -magnitude else magnitude;
      if JavaInt.IsInt(v) then Some(v) else None
  }

  /** Parsing the decimal text of an `int` gives the `int` back. */
  lemma ParseIntOfIntToString(i: int)
    requires JavaInt.IsInt(i)
    ensures ParseInt(IntToString(i)) == Some(i)
  {
    var n := JavaInt.Abs(i);
    DigitsValueOfNatToString(n);
    var s := IntToString(i);
    if i < 0 {
      assert s[1..] == NatToString(n);
    } else {
      assert IsDigit(s[0]);
    }
  }
}

=== FILE: validation_utils.dfy ===
/** The generic guards of `ValidationUtils`: each returns its (possibly
    normalised) argument or fails with a `ValidationException`. */
module ValidationUtils {
  import opened Wrappers
  import opened Exceptions
  import opened Text

  /** A string `requireLength` accepts: not blank, and its untrimmed length
      within `[minLength, maxLength]`. */
  predicate LengthOk(s: string, minLength: int, maxLength: int) {
    !IsBlank(s) && minLength <= |s| <= maxLength
  }

  function RequireNonNull<T>(value: Option<T>, message: string): (r: Result<T, Exception>)
    ensures r.Success? <==> value.Some?
    ensures r.Success? ==> r.value == value.value
    ensures r.Failure? ==> r.error == ValidationException(message)
  {
    match value
    case None => Failure(ValidationException(message))
    case Some(v) => Success(v)
  }

  /** Fails on `null` or a blank string; on success returns the TRIMMED string. */
  function RequireNonBlank(value: Option<string>, message: string): (r: Result<string, Exception>)
    ensures r.Success? <==> value.Some? && !IsBlank(value.value)
    ensures r.Success? ==> r.value == Trim(value.value) && r.value != []
    ensures r.Failure? ==> r.error == ValidationException(message)
  {
    match value
    case None => Failure(ValidationException(message))
    case Some(v) =>
      TrimEmptyIffBlank(v);
      if Trim(v) == [] then Failure(ValidationException(message)) else Success(Trim(v))
  }

  function RequirePositive(value: Option<int>, message: string): (r: Result<int, Exception>)
    ensures r.Success? <==> value.Some? && value.value > 0
    ensures r.Success? ==> r.value == value.value
    ensures r.Failure? ==> r.error == ValidationException(message)
  {
    if value.None? || value.value <= 0 then Failure(ValidationException(message))
    else Success(value.value)
  }

  function RequireNonEmpty<T>(collection: Option<seq<T>>, message: string): (r: Result<seq<T>, Exception>)
    ensures r.Success? <==> collection.Some? && |collection.value| > 0
    ensures r.Success? ==> r.value == collection.value
    ensures r.Failure? ==> r.error == ValidationException(message)
  {
    if collection.None? || collection.value == [] then Failure(ValidationException(message))
    else Success(collection.value)
  }

  /** The null check comes first, with its own fixed message; only a present
      value is handed to the condition. */
  function RequireCondition<T>(value: Option<T>, condition: T -> bool, message: string): (r: Result<T, Exception>)
    ensures value.None? ==> r == Failure(ValidationException("Valor não pode ser nulo"))
    ensures value.Some? ==> (r.Success? <==> condition(value.value))
    ensures value.Some? && !condition(value.value) ==> r == Failure(ValidationException(message))
    ensures r.Success? ==> r.value == value.value
  {
    match RequireNonNull(value, "Valor não pode ser nulo")
    case Failure(e) => Failure(e)
    case Success(v) => if !condition(v) then Failure(ValidationException(message)) else Success(v)
  }

  function TooShortMessage(fieldName: string, minLength: int): string {
    fieldName + " deve ter pelo menos " + IntToString(minLength) + " caracteres"
  }

  function TooLongMessage(fieldName: string, maxLength: int): string {
    fieldName + " não pode ter mais que " + IntToString(maxLength) + " caracteres"
  }

  function BlankMessage(fieldName: string): string {
    fieldName + " não pode ser vazio"
  }

  /** Blankness is judged after trimming, but the bounds are checked against
      the untrimmed length, and the untrimmed value is returned. */
  function RequireLength(value: Option<string>, minLength: int, maxLength: int, fieldName: string): (r: Result<string, Exception>)
    ensures r.Success? <==> value.Some? && LengthOk(value.value, minLength, maxLength)
    ensures r.Success? ==> r.value == value.value
    ensures (value.None? || IsBlank(value.value)) ==> r == Failure(ValidationException(BlankMessage(fieldName)))
    ensures value.Some? && !IsBlank(value.value) && |value.value| < minLength ==>
      r == Failure(ValidationException(TooShortMessage(fieldName, minLength)))
    ensures value.Some? && !IsBlank(value.value) && minLength <= |value.value| && |value.value| > maxLength ==>
      r == Failure(ValidationException(TooLongMessage(fieldName, maxLength)))
  {
    match RequireNonBlank(value, BlankMessage(fieldName))
    case Failure(e) => Failure(e)
    case Success(_) =>
      var v := value.value;
      if |v| < minLength then Failure(ValidationException(TooShortMessage(fieldName, minLength)))
      else if |v| > maxLength then Failure(ValidationException(TooLongMessage(fieldName, maxLength)))
      else Success(v)
  }

  /** `Objects.equals`: two nulls are equal, a null never equals a value. */
  function RequireEquals<T(==)>(expected: Option<T>, actual: Option<T>, message: string): (r: Outcome<Exception>)
    ensures r.Pass? <==> (expected.None? && actual.None?) || (expected.Some? && actual.Some? && expected.value == actual.value)
    ensures r.Fail? ==> r.error == ValidationException(message)
  {
    if expected != actual then Fail(ValidationException(message)) else Pass
  }

  /** A string with a leading space of legal untrimmed length is accepted even
      though its trimmed form is shorter than the minimum. */
  lemma LengthCountsUntrimmed()
    ensures RequireLength(Some(" A"), 2, 100, "Nome") == Success(" A")
  {
    assert !IsTrimmable(" A"[1]);
  }
}

=== FILE: wrappers.dfy ===
/** Failure-carrying datatypes used to model Java's `null` and its exceptions as values. */
module Wrappers {

  /** A possibly-absent value: `None` stands for a Java `null` reference. */
  datatype Option<+T> = None | Some(value: T) {
    function GetOr(default: T): (r: T)
      ensures Some? ==> r == value
      ensures None? ==> r == default
    {
      match this
      case Some(v) => v
      case None => default
    }
  }

  /** The outcome of a Java method that returns a value or throws. */
  datatype Result<+T, +E> = Success(value: T) | Failure(error: E)

  /** The outcome of a Java `void` method: it returns normally or throws. */
  datatype Outcome<+E> = Pass | Fail(error: E)
}

/** The Java exceptions the modelled code raises or lets escape, as a closed variant. */
module Exceptions {
  import opened Wrappers

  datatype Exception =
    | ValidationException(message: string)
    | NullPointerException
    | ArithmeticException(message: string)
    | NumberFormatException(message: string)
    | NoSuchElementException
    | SqlException(message: string)
    | RuntimeException(message: string)
  {
    /** `getMessage()`: absent for the exceptions raised here without a message. */
    function Message(): Option<string>
    {
      match this
      case ValidationException(m) => Some(m)
      case ArithmeticException(m) => Some(m)
      case NumberFormatException(m) => Some(m)
      case SqlException(m) => Some(m)
      case RuntimeException(m) => Some(m)
      case NullPointerException => None
      case NoSuchElementException => None
    }
  }
}
